=== FILE: README.md ===
# Critical-points analyzer: a Dafny model

This project models the computational core of a small web tool. The tool
reads a function f(x, y) typed by a user, finds the function's critical
points, and samples its surface for plotting. The core lives in two
TypeScript files:

- `src/lib/math/criticalPoints.ts` has five parts:
  - the expression front end `parseFunction`: validation, hard-coded
    shortcuts, string repairs, and a chain of compile attempts with
    fallbacks;
  - the derivative table `calculatePartialDerivatives`;
  - the second-derivative (Hessian) test;
  - the grid search `findCriticalPoints`;
  - the surface sampler `generate3DPlotData` / `generate2DContourData`.
- `src/lib/utils/latex.ts` has `convertToLatex`, which turns an expression
  into display LaTeX through a fixed chain of regular-expression replacements.

The source calls the `mathjs` library for compilation, evaluation, parsing,
symbolic differentiation and printing. The model keeps these calls
uninterpreted: `Oracle.MathJs` is a record of total functions, and every
call that can throw returns an `Outcome`. As a result, every statement about
the analyzer holds for any behaviour of mathjs in which each evaluation
either returns a real number or throws.

JavaScript numbers are modelled as exact reals, and strings as `seq<char>`.
Each global `replace(/…/g, …)` is modelled as a left-to-right scan. The scan
tries the pattern at each position and resumes after a replaced match.

Modules:

| module | file | contents |
|---|---|---|
| `Known` | known.dfy | the three textbook function texts that the analyzer recognises verbatim |
| `Chars` | chars.dfy | character classes (JavaScript's `\s`), `trim`, guards on adjacent characters |
| `Rewrite` | rewrite.dfy | the global replacements shared by both files, and deletion of a character class |
| `Oracle` | oracle.dfy | the mathjs interface and the evaluable objects the analyzer builds |
| `Parse` | parse.dfy | `parseFunction` |
| `Derivatives` | derivatives.dfy | `calculatePartialDerivatives` |
| `Hessian` | hessian.dfy | the classification, and what it means for the Hessian's quadratic form |
| `Search` | search.dfy | `findCriticalPoints`: special cases, the lattice scan, fallbacks |
| `Sampler` | sampler.dfy | `generate3DPlotData`, `generate2DContourData` |
| `Latex` | latex.dfy | `convertToLatex` |

Behaviours of the program that the model keeps as they are:

- When the search finds nothing, the origin is reported with its unrounded
  value and the label Undetermined, or the empty list if f(0, 0) fails to
  evaluate.
- Any parse failure yields the placeholder point (0, 0, 0, Undetermined).
- Several failed compile attempts silently fall back to x² + y².
- A comma is accepted anywhere in the text, not only inside argument lists.
- The letter-letter `*` insertion splits names such as `sin`.

## Model

| member | source | states |
|---|---|---|
| `Chars.Trim` | src/lib/math/criticalPoints.ts:19-22 | Trimming yields the empty text exactly when the input is all whitespace. Otherwise the result starts and ends with a non-space. It only keeps characters of the input. |
| `Chars.TrimIsSlice` | src/lib/math/criticalPoints.ts:19 | The trimmed text is one contiguous slice of the input, and everything cut off before and after it is whitespace. |
| `Rewrite.CollapseSpaces` | src/lib/math/criticalPoints.ts:86 | `replace(/\s+/g, ' ')` adds no character other than a space. The empty text stays empty; a text starting with whitespace starts with a space afterwards, and any other text keeps its first character. |
| `Rewrite.CollapseSpacesSeparates` | src/lib/math/criticalPoints.ts:86 | After `replace(/\s+/g, ' ')`, no two whitespace characters are adjacent, and every remaining whitespace character is a plain space. |
| `Rewrite.CollapseSpacesKeepsContent` | src/lib/math/criticalPoints.ts:86 | The collapse changes whitespace only: deleting all whitespace from input and output gives the same text. |
| `Rewrite.DigitLetter` | src/lib/math/criticalPoints.ts:87 | The digit-letter rewrite adds only characters of its separator, keeps the first character, and changes nothing on a text with no digit directly before a letter. |
| `Rewrite.DigitLetterSeparates` | src/lib/math/criticalPoints.ts:87 | After `replace(/([0-9])([a-zA-Z])/g, '$1*$2')`, no digit is directly followed by a letter. This holds for any separator that starts with a non-letter and holds no digit. |
| `Rewrite.DigitLetterInsertsOnlyStars` | src/lib/math/criticalPoints.ts:87 | The digit-letter rewrite only inserts `*`: deleting every `*` from input and output gives the same text. |
| `Rewrite.DigitLetterKeepsSpaceRuns` | src/lib/math/criticalPoints.ts:86-87 | Inserting a separator without whitespace creates no whitespace run. |
| `Rewrite.ReplaceAll` | src/lib/utils/latex.ts:39-40 | A literal global replacement adds only characters of its replacement text. The result starts with the replacement when the text starts with the pattern, and with the text's own first character otherwise. |
| `Rewrite.ReplaceCharOne` | src/lib/utils/latex.ts:46 | Replacing one character turns that character into the replacement text and keeps any other character. |
| `Rewrite.ReplaceCharConcat` | src/lib/utils/latex.ts:46 | Replacing one character works piece by piece over a concatenation. Together with `ReplaceCharOne`, this pins the result: each occurrence becomes the replacement, and the text between occurrences is kept in order. |
| `Rewrite.ReplaceAllIdle` | src/lib/utils/latex.ts:39-40 | A text in which the pattern occurs nowhere is left unchanged. |
| `Rewrite.ReplaceAllClearsPair` | src/lib/utils/latex.ts:39-40 | Replacing a two-character pattern `ab` by a text that holds no `ab`, does not start with `b` and does not end with `a` leaves no `ab` at all. |
| `Rewrite.ReplaceAllRemovesChar` | src/lib/utils/latex.ts:46 | Replacing every occurrence of one character by a text that lacks it leaves no occurrence. |
| `Rewrite.ReplaceAllKeepsCaretGuard` | src/lib/utils/latex.ts:39-40 | A literal global replacement whose text has no `^` and does not start with a digit never puts a digit right after a `^`. |
| `Oracle.CompileAndProbe` | src/lib/math/criticalPoints.ts:74-77 | `math.compile` followed by a test evaluation at the origin succeeds exactly when both calls succeed. On failure, the message is that of the first call that threw. |
| `Parse.InvalidChars` | src/lib/math/criticalPoints.ts:28-32 | The offending characters are exactly those of the text outside the accepted alphabet. The result is empty exactly when every character is allowed. |
| `Parse.JoinChars` | src/lib/math/criticalPoints.ts:31 | `join(', ')`: the empty list gives the empty text. Otherwise the text has length 3n − 2, the k-th character sits at position 3k, and each pair of neighbours is separated by `", "`. |
| `Parse.CommasToDots` | src/lib/math/criticalPoints.ts:56 | `replace(/,/g, '.')` keeps the length, turns each comma into a dot and keeps every other character in place. |
| `Parse.CommaRepair` | src/lib/math/criticalPoints.ts:54-58 | A comma at index 2 turns every comma into a dot and keeps the length. Any other text is left unchanged. |
| `Parse.SquaresToProducts` | src/lib/math/criticalPoints.ts:71 | `replace(/([a-zA-Z])\^2/g, '$1*$1')` keeps the length. Each position keeps its character, turns a `^` into `*`, or turns a `2` into a letter; the two lemmas below pin down which. |
| `Parse.SquaresRewriteMatches` | src/lib/math/criticalPoints.ts:71 | Every match `L^2` of the regex becomes `L*L` at the same place. |
| `Parse.SquaresKeepOthers` | src/lib/math/criticalPoints.ts:71 | Every character that is not the `^` or `2` of a match is kept in place. |
| `Parse.SquaresRewriteIffTest` | src/lib/math/criticalPoints.ts:69-71 | The `L^2 → L*L` rewrite changes the text exactly when the guarding test `/[a-zA-Z]\^2/` matches. |
| `Parse.CaretToPower` | src/lib/math/criticalPoints.ts:85 | `replace(/\^/g, '**')` leaves no `^` and adds no character other than `*`. |
| `Parse.CaretToPowerConcat` | src/lib/math/criticalPoints.ts:85 | The power rewrite works character by character: it distributes over concatenation. |
| `Parse.CaretToPowerOne` | src/lib/math/criticalPoints.ts:85 | On one character it gives `**` for `^`, and the character itself otherwise. |
| `Parse.CaretToPowerKeepsContent` | src/lib/math/criticalPoints.ts:85 | Apart from `^`, `*` and whitespace, the power rewrite keeps every character of the input in order. |
| `Parse.Normalize` | src/lib/math/criticalPoints.ts:84-87 | The preprocessed text holds no `^`, no whitespace run and no digit directly before a letter. Besides the input's own characters it adds only `*` and space. |
| `Parse.NormalizeKeepsContent` | src/lib/math/criticalPoints.ts:84-87 | The preprocessed text keeps the input's content: deleting `^`, `*` and whitespace from the input gives the same text as deleting `*` and whitespace from the result. |
| `Parse.LetterLetter` | src/lib/math/criticalPoints.ts:128 | The letter-pair rewrite keeps the first character and adds no character other than `*`. |
| `Parse.LetterLetterIdleIff` | src/lib/math/criticalPoints.ts:128 | The letter-pair rewrite changes the text exactly when two letters are adjacent somewhere in it. |
| `Parse.LetterLetterGrows` | src/lib/math/criticalPoints.ts:128 | The rewrite never shortens the text, and lengthens it whenever two letters are adjacent. |
| `Parse.ParenDigitLetter` | src/lib/math/criticalPoints.ts:129-131 | The in-parentheses digit-letter rewrite adds no character other than `*`. |
| `Parse.LetterLetterInsertsOnlyStars` | src/lib/math/criticalPoints.ts:128 | The letter-letter retry only inserts `*`. |
| `Parse.ParenDigitLetterIdle` | src/lib/math/criticalPoints.ts:129-131 | The in-parentheses digit-letter rewrite changes nothing on a text that has no digit directly before a letter. |
| `Parse.RetryOnlySplitsLetters` | src/lib/math/criticalPoints.ts:127-131 | On preprocessed text, the retry's second rewrite is idle, and the whole retry only inserts `*`. |
| `Parse.CompileChain` | src/lib/math/criticalPoints.ts:68-163 | The compile attempts never fail, and the first one that compiles and evaluates at the origin wins. A text with `letter^2` whose `x*x` rewrite evaluates gets that rewrite. Otherwise a preprocessed text that evaluates is returned as it is. If it fails with the "char 3" message, the answer is x² + y² reported under the preprocessed text. After any other failure, the mathjs print of the letter-splitting retry is used when it evaluates, and x² + y² with the text `x^2 + y^2` otherwise. x² + y² is only chosen when neither the rewrite nor the preprocessed text evaluates. |
| `Parse.ParseFunction` | src/lib/math/criticalPoints.ts:11-174 | The empty text fails with "Expression must be a non-empty string", and whitespace-only text with "Expression cannot be empty". Text with characters outside the alphabet fails with "Invalid characters in expression: " and the offenders joined by `", "`. All three carry the outer `Error parsing function: ` prefix, as every error does. Success implies the trimmed text is valid. `x^2 + y^2` gets its fixed answer. Any other valid text not in `f(x,y)` notation gets the compile chain's answer on the comma-repaired text. |
| `Parse.ParseTrimmed` | src/lib/math/criticalPoints.ts:20-50 | The same guarantees, stated for the already-trimmed text. |
| `Parse.Repaired` | src/lib/math/criticalPoints.ts:53-66 | Without `f(x,y)` notation after the comma repair, the answer is the compile chain's. With it, `parseFunction` runs again on the trimmed rest: its success is returned as it is, and its error message gets the prefix once more. |
| `Parse.RejectionIgnoresMathJs` | src/lib/math/criticalPoints.ts:11-174 | Whether `parseFunction` throws, and the message, do not depend on mathjs. All mathjs failures are absorbed by fallbacks. |
| `Parse.ValidTextIsAccepted` | src/lib/math/criticalPoints.ts:11-174 | Conversely, any text whose trimmed form is non-empty, within the alphabet and not in `f(x,y)` notation is accepted. |
| `Parse.AcceptedAfterValidation` | src/lib/math/criticalPoints.ts:14-32 | Passing the empty check and the invalid-character check is enough for success when the text is not in `f(x,y)` notation. |
| `Parse.RepairNeverFails` | src/lib/math/criticalPoints.ts:53-163 | Without `f(x,y)` notation, nothing after the comma repair throws. |
| `Derivatives.Differentiate` | src/lib/math/criticalPoints.ts:208-226 | The symbolic route succeeds exactly when mathjs yields the five derivative trees in the source's order and all five compile. fx and fy come from f; fxx and fxy come from fx; fyy comes from fy. |
| `Derivatives.PartialDerivatives` | src/lib/math/criticalPoints.ts:177-254 | `x^2 + y^2` gets (2x, 2y, 2, 2, 0) and `x^2 - y^2` gets (2x, −2y, 2, −2, 0). Otherwise the result is the compiled symbolic table when that route succeeds, and the x² + y² table when it fails. It is the all-zero table when `math.parse('x')` or `math.parse('y')` fails. It never fails. |
| `Derivatives.SumOfSquaresTableIsExact` | src/lib/math/criticalPoints.ts:182-191 | The fixed x² + y² table matches the function's exact central differences, so it is its true derivative table. |
| `Derivatives.DifferenceOfSquaresTableIsExact` | src/lib/math/criticalPoints.ts:193-202 | The same for x² − y². |
| `Hessian.Classify` | src/lib/math/criticalPoints.ts:343-356 | The four labels partition the inputs by the sign of det = fxx·fyy − fxy² and of fxx. |
| `Hessian.MinimumIffPositiveDefinite` | src/lib/math/criticalPoints.ts:347-350 | The label is Local minimum exactly when the Hessian's quadratic form is positive on every non-zero direction. |
| `Hessian.MaximumIffNegativeDefinite` | src/lib/math/criticalPoints.ts:347-353 | The label is Local maximum exactly when the form is negative on every non-zero direction. |
| `Hessian.SaddleIffIndefinite` | src/lib/math/criticalPoints.ts:354-355 | The label is Saddle point exactly when the form takes both signs. |
| `Hessian.UndeterminedIffSingular` | src/lib/math/criticalPoints.ts:345 | The label is Undetermined exactly when the Hessian maps some non-zero vector to zero. |
| `Hessian.PositiveDeterminantHasNonZeroFxx` | src/lib/math/criticalPoints.ts:347-353 | det > 0 forces fxx and fyy to be non-zero and of the same sign. So the `else` branch at line 351 means fxx < 0. |
| `Hessian.MixedSignIrrelevant` | src/lib/math/criticalPoints.ts:343 | The label depends on fxy only through fxy². |
| `Hessian.SwapAxes` | src/lib/math/criticalPoints.ts:343-356 | Exchanging the roles of x and y never changes the label. |
| `Hessian.NegationSwapsExtrema` | src/lib/math/criticalPoints.ts:343-356 | Negating the function swaps minima and maxima and keeps saddles and undetermined points. |
| `Search.Round3` | src/lib/math/criticalPoints.ts:362-364 | `Math.round(r * 1000) / 1000` is a whole number of thousandths within the half-open window [r − 0.0005, r + 0.0005). |
| `Search.Round3IsNearestThousandth` | src/lib/math/criticalPoints.ts:362-364 | That window determines the rounding: the only multiple of 0.001 in it is the result. |
| `Search.Round3Idempotent` | src/lib/math/criticalPoints.ts:362-364 | Rounding a rounded value changes nothing. |
| `Search.CountMatchesLoop` | src/lib/math/criticalPoints.ts:330-331 | The test `x <= xRange[1]` of the accumulating loop holds exactly for the first `Count` rounds: gridSize + 1 on an increasing window, none on a decreasing one. |
| `Search.LatticeEnds` | src/lib/math/criticalPoints.ts:324-331 | The lattice starts at the low end of the window and its last node is exactly the high end. |
| `Search.Probe` | src/lib/math/criticalPoints.ts:332-374 | A node yields a point exactly when both gradient components evaluate with absolute value below 0.01 and the Hessian entries and f evaluate. The point's x, y, z are the rounded node values, and its label is the Hessian test at the node. |
| `Search.RecordedKindIsHessianShape` | src/lib/math/criticalPoints.ts:339-366 | A recorded label means what it says: the Hessian at the node is positive definite, negative definite, indefinite or singular accordingly. |
| `Search.Before` | src/lib/math/criticalPoints.ts:330-376 | The record before node (i, j) holds at most one point per node visited so far. `Search.BeforeIsExact` states which points. |
| `Search.BeforeIsExact` | src/lib/math/criticalPoints.ts:330-376 | The points recorded before the loops reach a node are exactly the successful probes of the nodes visited earlier in row-major order. |
| `Search.BeforeIsPrefix` | src/lib/math/criticalPoints.ts:330-376 | The record only grows: what is recorded before an earlier node is a prefix of what is recorded before a later one. |
| `Search.Scan` | src/lib/math/criticalPoints.ts:330-376 | The scan records at most one point per lattice node. `Search.ScanIsExact` states which points. |
| `Search.ScanIsExact` | src/lib/math/criticalPoints.ts:330-376 | The scan records exactly the lattice nodes where the probe succeeds. |
| `Search.ScanLattice` | src/lib/math/criticalPoints.ts:321-376 | The nested `x += xStep` / `y += yStep` loops, with their floating tests, record the row-major scan of the lattice. |
| `Search.ScanColumn` | src/lib/math/criticalPoints.ts:331-375 | One pass of the inner loop appends the probes of one column in increasing y. |
| `Search.FindCriticalPoints` | src/lib/math/criticalPoints.ts:257-432 | The loop-based search returns the result of the functional definition of `findCriticalPoints`. |
| `Search.AnswerOutsideSearch` | src/lib/math/criticalPoints.ts:263-431 | When the grid search is not reached, the answer is non-empty and depends neither on mathjs nor on the window. It is one of the three hard-coded lists or the placeholder point. |
| `Search.CriticalPoints` | src/lib/math/criticalPoints.ts:257-432 | Outside the grid search, the three hard-coded answers are chosen by the trimmed text, and empty text or a parse failure gives the placeholder (0, 0, 0, Undetermined). The answer is empty only on the search path, and only when the parsed function throws at the origin. |
| `Search.SearchOutcome` | src/lib/math/criticalPoints.ts:378-396 | The recorded points come first, in loop order. The answer is empty exactly when nothing was recorded and f(0, 0) throws. Anything beyond the record is the single origin point labelled Undetermined. |
| `Search.SearchedPointsAreAccountedFor` | src/lib/math/criticalPoints.ts:378-393 | On the search path, every returned point is a successful lattice probe, or else the origin with its unrounded value, labelled Undetermined. The origin appears only when the scan found nothing and f(0, 0) evaluates. |
| `Search.SearchReturnsEveryProbe` | src/lib/math/criticalPoints.ts:330-393 | Conversely, every successful probe of a lattice node is returned. When none succeeds, the answer is that origin point, or the empty list when f(0, 0) throws. |
| `Search.SearchOutcomeMembers` | src/lib/math/criticalPoints.ts:330-396 | A point is in the search outcome exactly when it is the successful probe of some lattice node, or, when no probe succeeds, the origin with the value of f(0, 0), labelled Undetermined. |
| `Search.SearchPathOutcome` | src/lib/math/criticalPoints.ts:263-396 | When the grid search is reached, the answer is the search outcome for the function `parseFunction` returned, under the derivative table `calculatePartialDerivatives` computes for it. |
| `Search.SearchPathPoints` | src/lib/math/criticalPoints.ts:263-396 | When the grid search is reached, `findCriticalPoints` returns exactly the successful probes of the parsed function's lattice, or the origin fallback when there are none. |
| `Search.DefaultSearchGridTerminates` | src/lib/math/criticalPoints.ts:259-261 | The default window [−10, 10]² with 20 steps stops after 21 × 21 nodes. |
| `Sampler.SampleAt` | src/lib/math/criticalPoints.ts:464-469 | A cell holds the function's value where evaluation succeeds, and the NaN marker exactly where it throws. |
| `Sampler.SampleColumn` | src/lib/math/criticalPoints.ts:457-470 | The inner loop fills one row of gridSize + 1 cells above the y lattice. It builds the y axis in the first round only. |
| `Sampler.SampleLattice` | src/lib/math/criticalPoints.ts:452-473 | The loops produce axes of gridSize + 1 lattice coordinates, and a square z of that size whose every cell is sampled independently at its own node. |
| `Sampler.Generate3DPlotData` | src/lib/math/criticalPoints.ts:435-474 | `parseFunction` errors propagate with their message. Otherwise the result samples the parsed function on the lattice. |
| `Sampler.Generate2DContourData` | src/lib/math/criticalPoints.ts:477-486 | The contour data has the same outcome as the 3D data. |
| `Sampler.SamplingIsUnique` | src/lib/math/criticalPoints.ts:441-473 | The sampled data is determined by the function and the window. |
| `Sampler.SamplingSpansWindow` | src/lib/math/criticalPoints.ts:444-458 | With a positive grid size, both axes start at the low end of the window and end exactly at the high end. |
| `Latex.ConvertToLatex` | src/lib/utils/latex.ts:6-60 | The empty text stays empty. The three common functions get their fixed LaTeX before any trimming. Every other text gets an answer with no `^` before a digit, no `*`, no leading or trailing whitespace, and no two adjacent whitespace characters. |
| `Latex.Front` | src/lib/utils/latex.ts:24-27 | After trimming and collapsing whitespace, the text is empty only for an all-whitespace input, starts with a non-space, and has no whitespace run. |
| `Latex.MatchExponent` | src/lib/utils/latex.ts:41 | `/\^(\d+)/` matches at a position exactly when a `^` is followed by a digit. The match takes the whole digit run and puts it in braces. |
| `Latex.MatchFraction` | src/lib/utils/latex.ts:43 | A match of `/([\d.]+)\/([\d.]+)/` takes the whole numeral runs on both sides of the `/` and puts them into `\frac{…}{…}`. There is no match when every `/` is preceded by a non-numeral or followed by one. |
| `Latex.MatchParen` | src/lib/utils/latex.ts:48 | A match of `/\(([^()]+)\)/` is a non-empty group without parentheses inside, wrapped in `\left( … \right)`. There is no match when every `)` after the opening `(` has a parenthesis before it inside the group. |
| `Latex.MatchOperator` | src/lib/utils/latex.ts:55 | `/([+\-*])/` matches exactly one `+`, `-` or `*`, which gets a space on each side. |
| `Latex.MatchCall` | src/lib/utils/latex.ts:32 | A call match is non-empty, lies within the text and has a non-empty replacement. `Latex.CallStep` states which calls match and what they become. |
| `Latex.Apply` | src/lib/utils/latex.ts:30-48 | A pattern step turns the empty text, and only it, into the empty text. `Latex.ApplyAlphabet` and `Latex.ApplyKeepsCaretGuard` state what each step may add. |
| `Latex.CallStep` | src/lib/utils/latex.ts:32-37 | A call `name(args)` becomes `\name{args}` exactly when the name is sin, cos, tan, log, exp or sqrt. Any other call is kept verbatim, and the scan resumes after it. |
| `Latex.CallsIdleWithoutParen` | src/lib/utils/latex.ts:32-37 | Text without `(` passes the call step unchanged. |
| `Latex.ApplyAlphabet` | src/lib/utils/latex.ts:30-48 | Each pattern step adds no characters except its own replacement's literals. |
| `Latex.ExponentEstablishesCaretGuard` | src/lib/utils/latex.ts:41 | After `replace(/\^(\d+)/g, '^{$1}')`, no `^` is directly followed by a digit, whatever the input. |
| `Latex.ExponentIdempotent` | src/lib/utils/latex.ts:41 | The exponent step is idempotent. |
| `Latex.ApplyKeepsCaretGuard` | src/lib/utils/latex.ts:32-48 | No pattern step puts a digit right after a `^` in text that has none. |
| `Latex.Powers` | src/lib/utils/latex.ts:32-41 | After the call and exponent steps, no `^` precedes a digit. |
| `Latex.ExponentLiteralsCleared` | src/lib/utils/latex.ts:39-40 | `replace(/\^2/g, '^{2}')` leaves no `^2`, and `replace(/\^3/g, '^{3}')` leaves no `^3`. |
| `Latex.Products` | src/lib/utils/latex.ts:43-46 | The fraction and product steps leave no `*`. Each `*` becomes `\cdot ` in place and the rest is kept: see `Rewrite.ReplaceCharOne` and `Rewrite.ReplaceCharConcat`. |
| `Latex.ProductsGuarded` | src/lib/utils/latex.ts:43-46 | The fraction and product steps keep that guard and leave no `*`. |
| `Latex.OperatorsInsertOnlySpaces` | src/lib/utils/latex.ts:55 | Operator spacing only inserts plain spaces: deleting every space from input and output gives the same text. |
| `Latex.Finish` | src/lib/utils/latex.ts:48-58 | The final cleanup leaves no whitespace at either end; `Latex.FinishGuarded` states the rest. |
| `Latex.FinishGuarded` | src/lib/utils/latex.ts:48-58 | The final cleanup keeps both guards and leaves no whitespace at either end and no whitespace run. |
| `Latex.Pipeline` | src/lib/utils/latex.ts:23-58 | The general path always yields a text with no `^` before a digit, no `*`, no leading or trailing whitespace, and no two adjacent whitespace characters. |

## Left out

- Logging (`console.*`) and the `Math.random()` throttle of the per-node warning (src/lib/math/criticalPoints.ts:370). They do not affect results.
- The internals of mathjs: compile, evaluate, parse, derivative and `toString` are uninterpreted. The fixed derivative-table literals (`'2*x'`, `'-2*y'`, `'2'`, `'0'`, …) are taken as compiling to the linear functions they spell.
- Evaluations that return something other than a number, such as a complex value from `sqrt` or `log` of a negative, or a matrix. An evaluation is either a real or a throw. The source does not reject such a value. It stores it in the sample grid as it is (src/lib/math/criticalPoints.ts:465-466). It also passes it to `Math.abs` and `Math.round`, which coerce it (src/lib/math/criticalPoints.ts:337, 359-364).
- IEEE doubles: NaN, infinities, overflow and rounding of `+` and `/`. An evaluation that returns a number is an exact real, and one that throws is `Err`. The NaN marker of the sampler is a separate datatype case.
- `Math.PI` is the exact rational value of the double nearest to π.
- `SinCosPoints` keeps the value `1` for z at the maximum, exactly as written at criticalPoints.ts:291, even though sin(π/2) + cos(0) = 2.
- `Search.ScanLattice`: requires that the nested loops stop, via `Terminates`. Two cases are excluded:
  - a zero step, or a negative step on an increasing window, makes the source loop forever;
  - gridSize 0 does not loop forever. The step is then ±Infinity or NaN, each loop visits one node or none, and it stops. Exact reals cannot express that step, so this case is not modelled either.
- `Search.FindCriticalPoints`: carries the same requirement, but only when the grid search is reached.
- `Sampler.Generate3DPlotData`: requires gridSize ≠ 0. A zero gridSize divides by zero, and the coordinate becomes NaN under IEEE arithmetic, which exact reals cannot express. A negative gridSize is modelled: both loops then never run.
- `Sampler.Generate2DContourData`: the same gridSize requirement.
- A non-integer gridSize: the grid size is an integer in the model.
- The `typeof expression !== 'string'` checks: the input is always a string. The empty text, which the first check throws on, reaches the outer `catch` of criticalPoints.ts:419-431 and yields the placeholder point, as modelled.
- JavaScript strings are UTF-16 code-unit sequences, and the model uses `char` sequences. The invalid-character regex at criticalPoints.ts:28 has no `u` flag, so JavaScript reports a character outside the Basic Multilingual Plane (an emoji, say) as its two surrogate halves, joined by `", "`. `Parse.ParseFunction` names such a character once, so its message differs from the program's for such input.
- The outer `catch` blocks. In the model nothing in their `try` blocks throws, so they are never reached:
  - criticalPoints.ts:164-168, since `math.parse` failures are caught one level in;
  - criticalPoints.ts:397-407, since derivative assembly never throws;
  - latex.ts:61-65, since the replacements cannot throw.
- `Derivatives.SumOfSquaresTableIsExact` and `Derivatives.DifferenceOfSquaresTableIsExact` state exactness by central differences. These are exact on quadratics, and no symbolic derivative is built.

=== FILE: chars.dfy ===
/** Character classes and the small string predicates shared by the expression
    front end and the LaTeX converter. Whitespace is JavaScript's `\s` class,
    which is also exactly the set of code points `String.prototype.trim` strips. */
module Chars {

  predicate IsDigit(c: char) { '0' <= c <= '9' }
  predicate IsLower(c: char) { 'a' <= c <= 'z' }
  predicate IsUpper(c: char) { 'A' <= c <= 'Z' }

  /** The ASCII class `[a-zA-Z]`. */
  predicate IsLetter(c: char) { IsLower(c) || IsUpper(c) }

  /** The ECMAScript WhiteSpace and LineTerminator code points: tab, line
      feed, vertical tab, form feed, carriage return, space, no-break space,
      the Ogham space mark, the en quad to the hair space, the line and
      paragraph separators, the narrow no-break space, the medium
      mathematical space, the ideographic space and the byte order mark. */
  predicate IsSpace(c: char) {
    || '\t' <= c <= '\r' || c == ' ' || c == '\U{00A0}' || c == '\U{1680}'
    || '\U{2000}' <= c <= '\U{200A}' || c == '\U{2028}' || c == '\U{2029}'
    || c == '\U{202F}' || c == '\U{205F}' || c == '\U{3000}' || c == '\U{FEFF}'
  }

  predicate IsStar(c: char) { c == '*' }
  predicate IsBlank(c: char) { c == ' ' }

  /** The class `[^)]`. */
  predicate IsNotClose(c: char) { c != ')' }

  predicate StartsWith(s: string, prefix: string) {
    |prefix| <= |s| && s[..|prefix|] == prefix
  }

  /** `String.prototype.includes`. */
  predicate Contains(s: string, t: string)
    decreases |s|
  {
    StartsWith(s, t) || (s != [] && Contains(s[1..], t))
  }

  /** Length of the longest prefix of `s` whose characters all satisfy `p`. */
  function Span(s: string, p: char -> bool): (n: nat)
    ensures n <= |s|
    ensures forall i :: 0 <= i < n ==> p(s[i])
    ensures n < |s| ==> !p(s[n])
  {
    if s != [] && p(s[0]) then 1 + Span(s[1..], p) else 0
  }

  /** No two adjacent whitespace characters. */
  predicate NoSpaceRun(s: string) {
    forall k :: 0 <= k < |s| - 1 ==> !(IsSpace(s[k]) && IsSpace(s[k + 1]))
  }

  /** No digit immediately followed by a letter. */
  predicate NoDigitLetter(s: string) {
    forall k :: 0 <= k < |s| - 1 ==> !(IsDigit(s[k]) && IsLetter(s[k + 1]))
  }

  /** No `^` immediately followed by a digit. */
  predicate NoCaretDigit(s: string) {
    forall k :: 0 <= k < |s| - 1 ==> !(s[k] == '^' && IsDigit(s[k + 1]))
  }

  /** Removes leading whitespace. */
  function TrimStart(s: string): (r: string)
    ensures |r| <= |s| && r == s[|s| - |r|..]
    ensures forall k :: 0 <= k < |s| - |r| ==> IsSpace(s[k])
    ensures r == [] || !IsSpace(r[0])
  {
    if s != [] && IsSpace(s[0]) then TrimStart(s[1..]) else s
  }

  /** Removes trailing whitespace. */
  function TrimEnd(s: string): (r: string)
    ensures |r| <= |s| && r == s[..|r|]
    ensures forall k :: |r| <= k < |s| ==> IsSpace(s[k])
    ensures r == [] || !IsSpace(r[|r| - 1])
  {
    if s != [] && IsSpace(s[|s| - 1]) then TrimEnd(s[..|s| - 1]) else s
  }

  /** `String.prototype.trim`. */
  function Trim(s: string): (r: string)
    ensures |r| <= |s|
    ensures r == [] <==> forall k :: 0 <= k < |s| ==> IsSpace(s[k])
    ensures r != [] ==> !IsSpace(r[0]) && !IsSpace(r[|r| - 1])
    ensures forall c :: c in r ==> c in s
  {
    var t := TrimStart(s);
    var r := TrimEnd(t);
    assert forall c :: c in r ==> c in t;
    assert forall c :: c in t ==> c in s;
    assert r == [] ==> t == [];
    r
  }

  /** The head of a concatenation: the guards of the three predicates above
      hold across a joint exactly when they hold on both sides and at the seam. */
  lemma NoCaretDigitConcat(a: string, b: string)
    requires NoCaretDigit(a) && NoCaretDigit(b)
    requires a == [] || b == [] || !(a[|a| - 1] == '^' && IsDigit(b[0]))
    ensures NoCaretDigit(a + b)
  {
    var s := a + b;
    forall k | 0 <= k < |s| - 1 ensures !(s[k] == '^' && IsDigit(s[k + 1])) {
      if k + 1 < |a| {
        assert s[k] == a[k] && s[k + 1] == a[k + 1];
      } else if k >= |a| {
        assert s[k] == b[k - |a|] && s[k + 1] == b[k + 1 - |a|];
      }
    }
  }

  lemma NoSpaceRunConcat(a: string, b: string)
    requires NoSpaceRun(a) && NoSpaceRun(b)
    requires a == [] || b == [] || !(IsSpace(a[|a| - 1]) && IsSpace(b[0]))
    ensures NoSpaceRun(a + b)
  {
    var s := a + b;
    forall k | 0 <= k < |s| - 1 ensures !(IsSpace(s[k]) && IsSpace(s[k + 1])) {
      if k + 1 < |a| {
        assert s[k] == a[k] && s[k + 1] == a[k + 1];
      } else if k >= |a| {
        assert s[k] == b[k - |a|] && s[k + 1] == b[k + 1 - |a|];
      }
    }
  }

  lemma NoDigitLetterConcat(a: string, b: string)
    requires NoDigitLetter(a) && NoDigitLetter(b)
    requires a == [] || b == [] || !(IsDigit(a[|a| - 1]) && IsLetter(b[0]))
    ensures NoDigitLetter(a + b)
  {
    var s := a + b;
    forall k | 0 <= k < |s| - 1 ensures !(IsDigit(s[k]) && IsLetter(s[k + 1])) {
      if k + 1 < |a| {
        assert s[k] == a[k] && s[k + 1] == a[k + 1];
      } else if k >= |a| {
        assert s[k] == b[k - |a|] && s[k + 1] == b[k + 1 - |a|];
      }
    }
  }

  /** Any contiguous piece of a string keeps each of the three guards. */
  lemma CaretGuardOnSlice(s: string, i: nat, j: nat)
    requires i <= j <= |s|
    ensures NoCaretDigit(s) ==> NoCaretDigit(s[i..j])
  {
    var t := s[i..j];
    forall k | 0 <= k < |t| ensures t[k] == s[i + k] { }
  }

  lemma SpaceGuardOnSlice(s: string, i: nat, j: nat)
    requires i <= j <= |s|
    ensures NoSpaceRun(s) ==> NoSpaceRun(s[i..j])
  {
    var t := s[i..j];
    forall k | 0 <= k < |t| ensures t[k] == s[i + k] { }
  }

  lemma DigitGuardOnSlice(s: string, i: nat, j: nat)
    requires i <= j <= |s|
    ensures NoDigitLetter(s) ==> NoDigitLetter(s[i..j])
  {
    var t := s[i..j];
    forall k | 0 <= k < |t| ensures t[k] == s[i + k] { }
  }

  /** A text is its prefix followed by the rest. */
  lemma SplitAt(s: string, i: nat)
    requires i <= |s|
    ensures s[..i] + s[i..] == s
  {
  }

  lemma SplitHead(s: string)
    requires s != []
    ensures [s[0]] + s[1..] == s
  {
  }

  lemma SplitTwo(s: string)
    requires |s| >= 2
    ensures [s[0], s[1]] + s[2..] == s
  {
  }

  /** Trimming keeps a contiguous piece, so it keeps the guards. */
  lemma TrimKeepsGuards(s: string)
    ensures NoCaretDigit(s) ==> NoCaretDigit(Trim(s))
    ensures NoSpaceRun(s) ==> NoSpaceRun(Trim(s))
  {
    TrimKeepsCaretGuard(s);
    TrimKeepsSpaceGuard(s);
  }

  lemma TrimKeepsCaretGuard(s: string)
    ensures NoCaretDigit(s) ==> NoCaretDigit(Trim(s))
  {
    var a := TrimIsSlice(s);
    CaretGuardOnSlice(s, a, a + |Trim(s)|);
  }

  lemma TrimKeepsSpaceGuard(s: string)
    ensures NoSpaceRun(s) ==> NoSpaceRun(Trim(s))
  {
    var a := TrimIsSlice(s);
    SpaceGuardOnSlice(s, a, a + |Trim(s)|);
  }

  /** The trimmed text is the piece of `s` that starts at offset `a`, and
      what is cut off on either side is whitespace. */
  lemma TrimIsSlice(s: string) returns (a: nat)
    ensures a + |Trim(s)| <= |s| && Trim(s) == s[a..a + |Trim(s)|]
    ensures forall k :: 0 <= k < a ==> IsSpace(s[k])
    ensures forall k :: a + |Trim(s)| <= k < |s| ==> IsSpace(s[k])
  {
    var t := TrimStart(s);
    var r := TrimEnd(t);
    a := |s| - |t|;
    assert Trim(s) == r;
    assert t == s[a..] && r == t[..|r|];
    PrefixOfSuffix(s, a, |r|);
    forall k | a + |r| <= k < |s| ensures IsSpace(s[k]) {
      assert s[k] == t[k - a];
    }
  }

  lemma PrefixOfSuffix(s: string, a: nat, n: nat)
    requires a + n <= |s|
    ensures s[a..][..n] == s[a..a + n]
  {
  }
}

=== FILE: derivatives.dfy ===
/** `calculatePartialDerivatives` (src/lib/math/criticalPoints.ts): the two
    hard-coded derivative tables, the symbolic route through `math.derivative`,
    and the two fallback tables. The function never throws. */
module Derivatives {
  import opened Oracle
  import opened Known
  import opened Parse

  /** The five compiled partial derivatives of f(x, y). */
  datatype DerivativeSet = DerivativeSet(fx: EvalFn, fy: EvalFn, fxx: EvalFn, fyy: EvalFn, fxy: EvalFn)

  /** The derivative trees mathjs builds on the symbolic route. */
  datatype Trees = Trees(fx: Node, fy: Node, fxx: Node, fyy: Node, fxy: Node)

  /** `2*x`, `2*y`, `2`, `2`, `0`: the table of x^2 + y^2, also the fallback
      used when the symbolic route fails. */
  const SumOfSquaresTable: DerivativeSet :=
    DerivativeSet(Linear(2.0, 0.0, 0.0), Linear(0.0, 2.0, 0.0),
                  Linear(0.0, 0.0, 2.0), Linear(0.0, 0.0, 2.0), Linear(0.0, 0.0, 0.0))

  /** `2*x`, `-2*y`, `2`, `-2`, `0`: the table of x^2 - y^2. */
  const DifferenceOfSquaresTable: DerivativeSet :=
    DerivativeSet(Linear(2.0, 0.0, 0.0), Linear(0.0, -2.0, 0.0),
                  Linear(0.0, 0.0, 2.0), Linear(0.0, 0.0, -2.0), Linear(0.0, 0.0, 0.0))

  /** Five times `0`: the last-resort table. */
  const ZeroTable: DerivativeSet :=
    DerivativeSet(Linear(0.0, 0.0, 0.0), Linear(0.0, 0.0, 0.0),
                  Linear(0.0, 0.0, 0.0), Linear(0.0, 0.0, 0.0), Linear(0.0, 0.0, 0.0))

  /** The trees of `t` are the derivatives of the parsed text `e`, taken in the
      source's order: fx = D(f, x), fy = D(f, y), fxx = D(fx, x),
      fyy = D(fy, y) and the mixed fxy = D(fx, y). */
  predicate Derives(m: MathJs, e: string, vx: Node, vy: Node, t: Trees) {
    && m.parse(e).Ok?
    && m.derivative(m.parse(e).value, vx) == Ok(t.fx)
    && m.derivative(m.parse(e).value, vy) == Ok(t.fy)
    && m.derivative(t.fx, vx) == Ok(t.fxx)
    && m.derivative(t.fy, vy) == Ok(t.fyy)
    && m.derivative(t.fx, vy) == Ok(t.fxy)
  }

  /** Every printed derivative tree compiles. */
  predicate AllCompile(m: MathJs, t: Trees) {
    && m.compile(m.show(t.fx)).Ok? && m.compile(m.show(t.fy)).Ok?
    && m.compile(m.show(t.fxx)).Ok? && m.compile(m.show(t.fyy)).Ok?
    && m.compile(m.show(t.fxy)).Ok?
  }

  /** `math.compile(tree.toString())` for each of the five trees. */
  function TableOf(m: MathJs, t: Trees): DerivativeSet {
    DerivativeSet(Compiled(m.show(t.fx)), Compiled(m.show(t.fy)),
                  Compiled(m.show(t.fxx)), Compiled(m.show(t.fyy)), Compiled(m.show(t.fxy)))
  }

  /** The `try` block of lines 208-226: parse, five derivatives, five compiles;
      the first failure aborts the block. */
  function Differentiate(m: MathJs, e: string, vx: Node, vy: Node): (r: Option<Trees>)
    ensures r.Some? ==> Derives(m, e, vx, vy, r.value) && AllCompile(m, r.value)
    ensures r.None? ==> forall t :: Derives(m, e, vx, vy, t) ==> !AllCompile(m, t)
  {
    match m.parse(e)
    case Err(_) => None
    case Ok(f) =>
      match (m.derivative(f, vx), m.derivative(f, vy))
      case (Ok(fx), Ok(fy)) =>
        (match (m.derivative(fx, vx), m.derivative(fy, vy), m.derivative(fx, vy))
         case (Ok(fxx), Ok(fyy), Ok(fxy)) =>
           var t := Trees(fx, fy, fxx, fyy, fxy);
           if AllCompile(m, t) then Some(t) else None
         case _ => None)
      case _ => None
  }

  /** `calculatePartialDerivatives(funcObj)`. */
  function PartialDerivatives(m: MathJs, f: FuncObj): (r: DerivativeSet)
    ensures f.expression == SumOfSquaresText ==> r == SumOfSquaresTable
    ensures f.expression == DifferenceOfSquaresText ==> r == DifferenceOfSquaresTable
    ensures f.expression != SumOfSquaresText && f.expression != DifferenceOfSquaresText ==>
              if m.parse("x").Err? || m.parse("y").Err? then r == ZeroTable
              else
                && (forall t :: (Derives(m, f.expression, m.parse("x").value, m.parse("y").value, t)
                                 && AllCompile(m, t)) ==> r == TableOf(m, t))
                && ((forall t :: Derives(m, f.expression, m.parse("x").value, m.parse("y").value, t)
                                 ==> !AllCompile(m, t)) ==> r == SumOfSquaresTable)
                && (m.parse(f.expression).Err? ==> r == SumOfSquaresTable)
  {
    if f.expression == SumOfSquaresText then SumOfSquaresTable
    else if f.expression == DifferenceOfSquaresText then DifferenceOfSquaresTable
    else
      match (m.parse("x"), m.parse("y"))
      case (Ok(vx), Ok(vy)) =>
        (match Differentiate(m, f.expression, vx, vy)
         case Some(t) =>
           DerivesIsFunctional(m, f.expression, vx, vy, t);
           TableOf(m, t)
         case None => SumOfSquaresTable)
      case _ => ZeroTable
  }

  /** The derivative trees of a text are determined by mathjs: two
      derivations of the same text agree. */
  lemma DerivesIsFunctional(m: MathJs, e: string, vx: Node, vy: Node, t: Trees)
    requires Derives(m, e, vx, vy, t)
    ensures forall u :: Derives(m, e, vx, vy, u) ==> u == t
  {
  }

  /** The value of x^2 + y^2 and x^2 - y^2, the two functions with tables. */
  function SumSq(x: real, y: real): real { x * x + y * y }
  function DiffSq(x: real, y: real): real { x * x - y * y }

  /** An entry of a fixed table at (x, y); the table entries never fail. */
  function Entry(e: EvalFn, x: real, y: real): real
    requires e.Linear?
  {
    e.cx * x + e.cy * y + e.c0
  }

  /** The fixed tables are the exact analytical derivatives: for any step h,
      the central differences of the function (exact on quadratics) are h
      times the table's first derivatives and h * h times its second ones. */
  lemma SumOfSquaresTableIsExact(x: real, y: real, h: real)
    ensures SumSq(x + h, y) - SumSq(x - h, y) == 2.0 * h * Entry(SumOfSquaresTable.fx, x, y)
    ensures SumSq(x, y + h) - SumSq(x, y - h) == 2.0 * h * Entry(SumOfSquaresTable.fy, x, y)
    ensures SumSq(x + h, y) - 2.0 * SumSq(x, y) + SumSq(x - h, y) == h * h * Entry(SumOfSquaresTable.fxx, x, y)
    ensures SumSq(x, y + h) - 2.0 * SumSq(x, y) + SumSq(x, y - h) == h * h * Entry(SumOfSquaresTable.fyy, x, y)
    ensures SumSq(x + h, y + h) - SumSq(x + h, y - h) - SumSq(x - h, y + h) + SumSq(x - h, y - h)
              == 4.0 * h * h * Entry(SumOfSquaresTable.fxy, x, y)
  {
  }

  lemma DifferenceOfSquaresTableIsExact(x: real, y: real, h: real)
    ensures DiffSq(x + h, y) - DiffSq(x - h, y) == 2.0 * h * Entry(DifferenceOfSquaresTable.fx, x, y)
    ensures DiffSq(x, y + h) - DiffSq(x, y - h) == 2.0 * h * Entry(DifferenceOfSquaresTable.fy, x, y)
    ensures DiffSq(x + h, y) - 2.0 * DiffSq(x, y) + DiffSq(x - h, y) == h * h * Entry(DifferenceOfSquaresTable.fxx, x, y)
    ensures DiffSq(x, y + h) - 2.0 * DiffSq(x, y) + DiffSq(x, y - h) == h * h * Entry(DifferenceOfSquaresTable.fyy, x, y)
    ensures DiffSq(x + h, y + h) - DiffSq(x + h, y - h) - DiffSq(x - h, y + h) + DiffSq(x - h, y - h)
              == 4.0 * h * h * Entry(DifferenceOfSquaresTable.fxy, x, y)
  {
  }
}

=== FILE: hessian.dfy ===
/** The second-derivative test of `findCriticalPoints`
    (src/lib/math/criticalPoints.ts, lines 343-356) and what it means: the sign
    of the Hessian determinant and of fxx decide whether the quadratic form of
    the Hessian is definite, indefinite or singular. Products in the lemmas are
    written through `Mul` so that the solver treats them as terms. */
module Hessian {
  /** The four labels of a critical point. */
  datatype Kind = LocalMinimum | LocalMaximum | SaddlePoint | Undetermined
  /** `fxxValue * fyyValue - fxyValue * fxyValue`. */
  function Determinant(fxx: real, fyy: real, fxy: real): real {
    fxx * fyy - fxy * fxy
  }
  /** The label chosen from the Hessian entries at a candidate point. */
  function Classify(fxx: real, fyy: real, fxy: real): (k: Kind)
    ensures k == LocalMinimum <==> Determinant(fxx, fyy, fxy) > 0.0 && fxx > 0.0
    ensures k == LocalMaximum <==> Determinant(fxx, fyy, fxy) > 0.0 && fxx <= 0.0
    ensures k == SaddlePoint <==> Determinant(fxx, fyy, fxy) < 0.0
    ensures k == Undetermined <==> Determinant(fxx, fyy, fxy) == 0.0
  {
    var det := Determinant(fxx, fyy, fxy);
    if det > 0.0 then (if fxx > 0.0 then LocalMinimum else LocalMaximum)
    else if det < 0.0 then SaddlePoint
    else Undetermined
  }

  /** A real product, named so that lemma arguments stay syntactic terms. */
  function Mul(p: real, q: real): real { p * q }

  /** The Hessian quadratic form Q(u, v) = a u^2 + 2 c u v + b v^2, with
      a = fxx, b = fyy and c = fxy. */
  function Form(a: real, b: real, c: real, u: real, v: real): real {
    Mul(a, Mul(u, u)) + 2.0 * Mul(c, Mul(u, v)) + Mul(b, Mul(v, v))
  }

  /** Q is positive on every non-zero direction: a strict local minimum. */
  ghost predicate PositiveDefinite(a: real, b: real, c: real) {
    forall u, v :: (u != 0.0 || v != 0.0) ==> Form(a, b, c, u, v) > 0.0
  }
  /** Q is negative on every non-zero direction: a strict local maximum. */
  ghost predicate NegativeDefinite(a: real, b: real, c: real) {
    forall u, v :: (u != 0.0 || v != 0.0) ==> Form(a, b, c, u, v) < 0.0
  }
  /** Q takes both signs: a saddle. */
  ghost predicate Indefinite(a: real, b: real, c: real) {
    (exists u, v :: Form(a, b, c, u, v) > 0.0) && (exists u, v :: Form(a, b, c, u, v) < 0.0)
  }
  /** (u, v) is a non-zero vector the Hessian maps to zero. */
  predicate Kernel(a: real, b: real, c: real, u: real, v: real) {
    (u != 0.0 || v != 0.0) && Mul(a, u) + Mul(c, v) == 0.0 && Mul(c, u) + Mul(b, v) == 0.0
  }
  /** The Hessian has a non-trivial kernel, so the test cannot decide. */
  ghost predicate Singular(a: real, b: real, c: real) {
    exists u, v :: Kernel(a, b, c, u, v)
  }

  /** Sign rules of a product. */
  lemma MulSign(p: real, q: real)
    ensures p > 0.0 && q > 0.0 ==> Mul(p, q) > 0.0
    ensures p < 0.0 && q < 0.0 ==> Mul(p, q) > 0.0
    ensures p > 0.0 && q < 0.0 ==> Mul(p, q) < 0.0
    ensures p < 0.0 && q > 0.0 ==> Mul(p, q) < 0.0
    ensures p == 0.0 || q == 0.0 ==> Mul(p, q) == 0.0
    ensures Mul(p, p) >= 0.0
    ensures Mul(p, q) == Mul(q, p)
  {
    assert Mul(p, q) == p * q && Mul(p, p) == p * p && Mul(q, p) == q * p;
  }

  /** Completing the square: a Q(u, v) = (a u + c v)^2 + det v^2. */
  lemma CompleteSquare(a: real, b: real, c: real, u: real, v: real)
    ensures Mul(a, Form(a, b, c, u, v))
            == Mul(Mul(a, u) + Mul(c, v), Mul(a, u) + Mul(c, v)) + Mul(Determinant(a, b, c), Mul(v, v))
  {
    assert Mul(a, Form(a, b, c, u, v)) == a * (a * (u * u) + 2.0 * (c * (u * v)) + b * (v * v));
    assert Mul(Mul(a, u) + Mul(c, v), Mul(a, u) + Mul(c, v)) == (a * u + c * v) * (a * u + c * v);
    assert Mul(Determinant(a, b, c), Mul(v, v)) == (a * b - c * c) * (v * v);
  }

  /** Along (c, -a) the form is a times the determinant. */
  lemma FormAlongCofactor(a: real, b: real, c: real)
    ensures Form(a, b, c, c, -a) == Mul(a, Determinant(a, b, c))
  {
    assert Form(a, b, c, c, -a) == a * (c * c) + 2.0 * (c * (c * -a)) + b * (-a * -a);
  }

  lemma FormOnAxis(a: real, b: real, c: real)
    ensures Form(a, b, c, 1.0, 0.0) == a
    ensures Form(a, b, c, 0.0, 1.0) == b
  {
    assert Form(a, b, c, 1.0, 0.0) == a * (1.0 * 1.0) + 2.0 * (c * (1.0 * 0.0)) + b * (0.0 * 0.0);
    assert Form(a, b, c, 0.0, 1.0) == a * (0.0 * 0.0) + 2.0 * (c * (0.0 * 1.0)) + b * (1.0 * 1.0);
  }

  /** With a positive determinant the form has the sign of a everywhere off
      the origin. */
  lemma PositiveDeterminantFixesSign(a: real, b: real, c: real, u: real, v: real)
    requires Determinant(a, b, c) > 0.0
    requires u != 0.0 || v != 0.0
    ensures a != 0.0
    ensures a > 0.0 ==> Form(a, b, c, u, v) > 0.0
    ensures a < 0.0 ==> Form(a, b, c, u, v) < 0.0
  {
    MulSign(c, c);
    assert a != 0.0 by {
      assert Mul(c, c) == c * c;
    }
    var w := Mul(a, u) + Mul(c, v);
    CompleteSquare(a, b, c, u, v);
    MulSign(w, w);
    MulSign(v, v);
    MulSign(Determinant(a, b, c), Mul(v, v));
    if v == 0.0 {
      MulSign(c, v);
      MulSign(a, u);
      MulSign(w, w);
    }
    assert Mul(a, Form(a, b, c, u, v)) > 0.0;
    MulSign(a, Form(a, b, c, u, v));
  }

  /** With a zero determinant the form never takes the sign opposite to a. */
  lemma ZeroDeterminantSemidefinite(a: real, b: real, c: real, u: real, v: real)
    requires Determinant(a, b, c) == 0.0
    ensures a > 0.0 ==> Form(a, b, c, u, v) >= 0.0
    ensures a < 0.0 ==> Form(a, b, c, u, v) <= 0.0
    ensures a == 0.0 ==> c == 0.0 && Form(a, b, c, u, v) == Mul(b, Mul(v, v))
  {
    var w := Mul(a, u) + Mul(c, v);
    CompleteSquare(a, b, c, u, v);
    MulSign(w, w);
    MulSign(Determinant(a, b, c), Mul(v, v));
    MulSign(a, Form(a, b, c, u, v));
    if a == 0.0 {
      assert c * c == 0.0;
      MulSign(c, c);
      assert Mul(c, c) == c * c;
      MulSign(a, Mul(u, u));
      MulSign(c, Mul(u, v));
    }
  }

  /** The test reports a minimum exactly when the Hessian is positive definite. */
  lemma MinimumIffPositiveDefinite(fxx: real, fyy: real, fxy: real)
    ensures Classify(fxx, fyy, fxy) == LocalMinimum <==> PositiveDefinite(fxx, fyy, fxy)
  {
    if Classify(fxx, fyy, fxy) == LocalMinimum {
      forall u, v | u != 0.0 || v != 0.0 ensures Form(fxx, fyy, fxy, u, v) > 0.0 {
        PositiveDeterminantFixesSign(fxx, fyy, fxy, u, v);
      }
    }
    if PositiveDefinite(fxx, fyy, fxy) {
      FormOnAxis(fxx, fyy, fxy);
      assert Form(fxx, fyy, fxy, 1.0, 0.0) > 0.0;
      FormAlongCofactor(fxx, fyy, fxy);
      assert Form(fxx, fyy, fxy, fxy, -fxx) > 0.0;
      MulSign(fxx, Determinant(fxx, fyy, fxy));
    }
  }

  /** The test reports a maximum exactly when the Hessian is negative
      definite; the `else` branch of line 349 (fxx <= 0) never sees fxx == 0
      with a positive determinant. */
  lemma MaximumIffNegativeDefinite(fxx: real, fyy: real, fxy: real)
    ensures Classify(fxx, fyy, fxy) == LocalMaximum <==> NegativeDefinite(fxx, fyy, fxy)
  {
    if Classify(fxx, fyy, fxy) == LocalMaximum {
      forall u, v | u != 0.0 || v != 0.0 ensures Form(fxx, fyy, fxy, u, v) < 0.0 {
        PositiveDeterminantFixesSign(fxx, fyy, fxy, u, v);
      }
    }
    if NegativeDefinite(fxx, fyy, fxy) {
      FormOnAxis(fxx, fyy, fxy);
      assert Form(fxx, fyy, fxy, 1.0, 0.0) < 0.0;
      FormAlongCofactor(fxx, fyy, fxy);
      assert Form(fxx, fyy, fxy, fxy, -fxx) < 0.0;
      MulSign(fxx, Determinant(fxx, fyy, fxy));
    }
  }

  /** With fxx = 0 and fxy != 0 the form along (t, 1) is 2 fxy t + fyy, which
      reaches any value. */
  lemma FormOnLine(b: real, c: real, t: real)
    ensures Form(0.0, b, c, t, 1.0) == 2.0 * Mul(c, t) + b
  {
    assert Form(0.0, b, c, t, 1.0) == 0.0 * (t * t) + 2.0 * (c * (t * 1.0)) + b * (1.0 * 1.0);
  }

  /** Solves c t = target. */
  lemma Reach(c: real, target: real) returns (t: real)
    requires c != 0.0
    ensures Mul(c, t) == target
  {
    t := target / c;
    assert Mul(c, t) == c * (target / c);
  }

  /** The test reports a saddle exactly when the form takes both signs. */
  lemma SaddleIffIndefinite(fxx: real, fyy: real, fxy: real)
    ensures Classify(fxx, fyy, fxy) == SaddlePoint <==> Indefinite(fxx, fyy, fxy)
  {
    var d := Determinant(fxx, fyy, fxy);
    if d < 0.0 {
      if fxx != 0.0 {
        FormOnAxis(fxx, fyy, fxy);
        FormAlongCofactor(fxx, fyy, fxy);
        MulSign(fxx, d);
        if fxx > 0.0 {
          assert Form(fxx, fyy, fxy, 1.0, 0.0) > 0.0;
          assert Form(fxx, fyy, fxy, fxy, -fxx) < 0.0;
        } else {
          assert Form(fxx, fyy, fxy, fxy, -fxx) > 0.0;
          assert Form(fxx, fyy, fxy, 1.0, 0.0) < 0.0;
        }
      } else {
        assert fxy != 0.0 by {
          assert d == -(fxy * fxy);
        }
        var up := Reach(fxy, (1.0 - fyy) / 2.0);
        var down := Reach(fxy, (-1.0 - fyy) / 2.0);
        FormOnLine(fyy, fxy, up);
        FormOnLine(fyy, fxy, down);
        assert Form(fxx, fyy, fxy, up, 1.0) == 1.0;
        assert Form(fxx, fyy, fxy, down, 1.0) == -1.0;
      }
    } else if Indefinite(fxx, fyy, fxy) {
      var u1, v1 :| Form(fxx, fyy, fxy, u1, v1) > 0.0;
      var u2, v2 :| Form(fxx, fyy, fxy, u2, v2) < 0.0;
      if d > 0.0 {
        MulSign(0.0, 0.0);
        PositiveDeterminantFixesSign(fxx, fyy, fxy, u1, v1);
        PositiveDeterminantFixesSign(fxx, fyy, fxy, u2, v2);
      } else {
        ZeroDeterminantSemidefinite(fxx, fyy, fxy, u1, v1);
        ZeroDeterminantSemidefinite(fxx, fyy, fxy, u2, v2);
        MulSign(v1, v1);
        MulSign(v2, v2);
        MulSign(fyy, Mul(v1, v1));
        MulSign(fyy, Mul(v2, v2));
      }
    }
  }

  /** A singular Hessian has determinant zero. */
  lemma KernelKillsDeterminant(a: real, b: real, c: real, u: real, v: real)
    requires Kernel(a, b, c, u, v)
    ensures Determinant(a, b, c) == 0.0
  {
    assert a * u + c * v == 0.0 && c * u + b * v == 0.0 by {
      assert Mul(a, u) == a * u && Mul(c, v) == c * v && Mul(c, u) == c * u && Mul(b, v) == b * v;
    }
    var d := Determinant(a, b, c);
    assert d * u == b * (a * u + c * v) - c * (c * u + b * v);
    assert d * v == a * (c * u + b * v) - c * (a * u + c * v);
    assert d * u == 0.0 && d * v == 0.0;
  }

  /** The test gives up exactly when the Hessian is singular. */
  lemma UndeterminedIffSingular(fxx: real, fyy: real, fxy: real)
    ensures Classify(fxx, fyy, fxy) == Undetermined <==> Singular(fxx, fyy, fxy)
  {
    var d := Determinant(fxx, fyy, fxy);
    if d == 0.0 {
      if fxx != 0.0 || fxy != 0.0 {
        assert Mul(fxx, fxy) + Mul(fxy, -fxx) == 0.0 by {
          assert Mul(fxx, fxy) == fxx * fxy && Mul(fxy, -fxx) == fxy * -fxx;
        }
        assert Mul(fxy, fxy) + Mul(fyy, -fxx) == 0.0 by {
          assert Mul(fxy, fxy) == fxy * fxy && Mul(fyy, -fxx) == fyy * -fxx;
        }
        assert Kernel(fxx, fyy, fxy, fxy, -fxx);
      } else {
        MulSign(fxx, 1.0);
        MulSign(fxy, 0.0);
        MulSign(fxy, 1.0);
        MulSign(fyy, 0.0);
        assert Kernel(fxx, fyy, fxy, 1.0, 0.0);
      }
    }
    if Singular(fxx, fyy, fxy) {
      var u, v :| Kernel(fxx, fyy, fxy, u, v);
      KernelKillsDeterminant(fxx, fyy, fxy, u, v);
    }
  }

  /** A positive determinant forces fxx and fyy to share a non-zero sign. */
  lemma PositiveDeterminantHasNonZeroFxx(fxx: real, fyy: real, fxy: real)
    requires Determinant(fxx, fyy, fxy) > 0.0
    ensures fxx != 0.0 && fyy != 0.0
    ensures fxx > 0.0 <==> fyy > 0.0
  {
    MulSign(fxy, fxy);
    MulSign(fxx, fyy);
    assert Mul(fxx, fyy) == fxx * fyy && Mul(fxy, fxy) == fxy * fxy;
  }

  /** Exchanging the roles of x and y does not change the label, although
      the test only looks at fxx. */
  lemma SwapAxes(fxx: real, fyy: real, fxy: real)
    ensures Classify(fxx, fyy, fxy) == Classify(fyy, fxx, fxy)
  {
    assert Determinant(fxx, fyy, fxy) == Determinant(fyy, fxx, fxy);
    if Determinant(fxx, fyy, fxy) > 0.0 {
      PositiveDeterminantHasNonZeroFxx(fxx, fyy, fxy);
    }
  }

  /** Only the square of fxy matters. */
  lemma MixedSignIrrelevant(fxx: real, fyy: real, fxy: real)
    ensures Classify(fxx, fyy, fxy) == Classify(fxx, fyy, -fxy)
  {
    assert Determinant(fxx, fyy, fxy) == Determinant(fxx, fyy, -fxy);
  }

  /** Negating the function (and so its Hessian) swaps minima and maxima
      and keeps saddles and undecided points. */
  lemma NegationSwapsExtrema(fxx: real, fyy: real, fxy: real)
    ensures Classify(fxx, fyy, fxy) == LocalMinimum <==> Classify(-fxx, -fyy, -fxy) == LocalMaximum
    ensures Classify(fxx, fyy, fxy) == LocalMaximum <==> Classify(-fxx, -fyy, -fxy) == LocalMinimum
    ensures Classify(fxx, fyy, fxy) == SaddlePoint <==> Classify(-fxx, -fyy, -fxy) == SaddlePoint
    ensures Classify(fxx, fyy, fxy) == Undetermined <==> Classify(-fxx, -fyy, -fxy) == Undetermined
  {
    assert Determinant(-fxx, -fyy, -fxy) == Determinant(fxx, fyy, fxy);
    if Determinant(fxx, fyy, fxy) > 0.0 {
      PositiveDeterminantHasNonZeroFxx(fxx, fyy, fxy);
    }
  }
}

=== FILE: known.dfy ===
/** The three textbook functions that `findCriticalPoints`, `parseFunction`,
    `calculatePartialDerivatives` and `convertToLatex` all recognise by their
    exact text. */
module Known {
  const SumOfSquaresText: string := "x^2 + y^2"
  const DifferenceOfSquaresText: string := "x^2 - y^2"
  const SinCosText: string := "sin(x) + cos(y)"
}

=== FILE: latex.dfy ===
/** `convertToLatex` (src/lib/utils/latex.ts, lines 6-66): three fixed
    answers, then a fixed chain of global regular-expression replacements that
    turns an expression into display LaTeX. */
module Latex {
  import opened Chars
  import opened Rewrite
  import opened Oracle
  import opened Known

  /** The replacement steps whose pattern is more than a literal text. */
  datatype Rule =
    | Calls      // `/([a-z]+)\(([^)]+)\)/g`: known function calls in braces
    | Exponent   // `/\^(\d+)/g`: braces around a numeric exponent
    | Fraction   // `/([\d.]+)\/([\d.]+)/g`: `\frac` for a numeric quotient
    | Paren      // `/\(([^()]+)\)/g`: `\left( ... \right)` around innermost groups
    | Operators  // `/([+\-*])/g`: a space on each side of `+`, `-` and `*`

  /** A match: its length and the text it is replaced with. */
  datatype Hit = Hit(len: nat, rep: string)

  /** The function names the call step typesets. */
  const KnownFunctions: set<string> := {"sin", "cos", "tan", "log", "exp", "sqrt"}

  const SinCosLatex: string := "\\sin{x} + \\cos{y}"

  /** The class `[\d.]`. */
  predicate IsNumeral(c: char) { IsDigit(c) || c == '.' }

  /** The class `[^()]`. */
  predicate IsNotParen(c: char) { c != '(' && c != ')' }

  /** The characters a rule's replacement may add that its match lacks. */
  function Introduced(rule: Rule): set<char> {
    match rule
    case Calls => {'\\', '{', '}'}
    case Exponent => {'{', '}'}
    case Fraction => {'\\', 'f', 'r', 'a', 'c', '{', '}'}
    case Paren => {'\\', 'l', 'e', 'f', 't', 'r', 'i', 'g', 'h', '(', ')'}
    case Operators => {' '}
  }

  /** The match of `rule` at the start of `t`, if any. Each pattern is a
      greedy class run whose backtracking cannot help: a shorter run is
      followed by a character of the class itself, never by the delimiter
      the pattern needs next, so a match exists only on the maximal run. */
  function Match(rule: Rule, t: string): (h: Option<Hit>)
    ensures h.Some? ==> 0 < h.value.len <= |t| && h.value.rep != []
  {
    match rule
    case Calls => MatchCall(t)
    case Exponent => MatchExponent(t)
    case Fraction => MatchFraction(t)
    case Paren => MatchParen(t)
    case Operators => MatchOperator(t)
  }

  /** `name(args)`: a lowercase name, then arguments without `)`. */
  function MatchCall(t: string): (h: Option<Hit>)
    ensures h.Some? ==> 0 < h.value.len <= |t| && h.value.rep != []
  {
    var n := Span(t, IsLower);
    if n == 0 || n >= |t| || t[n] != '(' then None
    else
      var k := Span(t[n + 1..], IsNotClose);
      if k == 0 || n + 1 + k >= |t| then None
      else
        Some(CallHit(t, n, k))
  }

  /** The hit for a call whose name has n characters and whose arguments
      have k, at the start of `t`. */
  function CallHit(t: string, n: nat, k: nat): Hit
    requires n + 1 + k < |t|
  {
    Hit(n + 2 + k, CallRep(t[..n], t[n + 1..n + 1 + k], t[..n + 2 + k]))
  }

  /** The replacement callback of line 32: a known name is typeset as
      `\name{args}`, any other call is kept as it was matched. */
  function CallRep(name: string, args: string, call: string): string {
    if name in KnownFunctions then "\\" + name + "{" + args + "}" else call
  }

  /** `^` and a run of digits: a match exists exactly when a digit follows
      the `^`, it takes the whole run, and the run is put in braces. */
  function MatchExponent(t: string): (h: Option<Hit>)
    ensures h.Some? ==> 0 < h.value.len <= |t| && h.value.rep != []
    ensures h.Some? <==> |t| >= 2 && t[0] == '^' && IsDigit(t[1])
    ensures h.Some? ==> && (forall i :: 1 <= i < h.value.len ==> IsDigit(t[i]))
                        && (h.value.len == |t| || !IsDigit(t[h.value.len]))
                        && h.value.rep == "^{" + t[1..h.value.len] + "}"
  {
    if t == [] || t[0] != '^' then None
    else
      var k := Span(t[1..], IsDigit);
      if k == 0 then None else Some(Hit(1 + k, "^{" + t[1..1 + k] + "}"))
  }

  /** Two runs of digits and dots around a `/`: a match takes both whole
      runs and puts them into `\frac`; there is none when no `/` is preceded
      only by numerals and followed by one. */
  function MatchFraction(t: string): (h: Option<Hit>)
    ensures h.Some? ==> 0 < h.value.len <= |t| && h.value.rep != []
    ensures h.Some? ==> var n := h.value.len; var a := Span(t, IsNumeral);
              && 0 < a && a + 1 < n && t[a] == '/'
              && (forall i :: 0 <= i < n && i != a ==> IsNumeral(t[i]))
              && (n == |t| || !IsNumeral(t[n]))
              && h.value.rep == "\\frac{" + t[..a] + "}{" + t[a + 1..n] + "}"
    ensures h.None? ==> forall a :: 0 < a < |t| - 1 && t[a] == '/' ==>
              (exists i :: 0 <= i < a && !IsNumeral(t[i])) || !IsNumeral(t[a + 1])
  {
    var a := Span(t, IsNumeral);
    if a == 0 || a >= |t| || t[a] != '/' then
      FractionNeedsNumerator(t, a);
      None
    else
      var b := Span(t[a + 1..], IsNumeral);
      if b == 0 then
        FractionNeedsDenominator(t, a);
        None
      else
        FractionRuns(t, a, b);
        Some(Hit(a + 1 + b, "\\frac{" + t[..a] + "}{" + t[a + 1..a + 1 + b] + "}"))
  }

  /** No numeral run directly before a `/` at the start: no `/` qualifies. */
  lemma FractionNeedsNumerator(t: string, a: nat)
    requires a == Span(t, IsNumeral) && !(0 < a < |t| && t[a] == '/')
    ensures forall j :: 0 < j < |t| - 1 && t[j] == '/' ==> exists i :: 0 <= i < j && !IsNumeral(t[i])
  {
    forall j | 0 < j < |t| - 1 && t[j] == '/' ensures exists i :: 0 <= i < j && !IsNumeral(t[i]) {
      assert !IsNumeral(t[j]);
      assert a < j && !IsNumeral(t[a]);
    }
  }

  /** A `/` after the numerator run but no numeral after it: no `/` qualifies. */
  lemma FractionNeedsDenominator(t: string, a: nat)
    requires a == Span(t, IsNumeral) && 0 < a < |t| && t[a] == '/'
    requires Span(t[a + 1..], IsNumeral) == 0
    ensures forall j :: 0 < j < |t| - 1 && t[j] == '/' ==>
              (exists i :: 0 <= i < j && !IsNumeral(t[i])) || !IsNumeral(t[j + 1])
  {
    forall j | 0 < j < |t| - 1 && t[j] == '/'
      ensures (exists i :: 0 <= i < j && !IsNumeral(t[i])) || !IsNumeral(t[j + 1])
    {
      assert !IsNumeral(t[j]);
      if j == a {
        assert t[a + 1..][0] == t[j + 1];
      } else {
        assert a < j && !IsNumeral(t[a]);
      }
    }
  }

  /** The two runs of a fraction match, each taken whole. */
  lemma FractionRuns(t: string, a: nat, b: nat)
    requires a == Span(t, IsNumeral) && 0 < a < |t| && t[a] == '/'
    requires b == Span(t[a + 1..], IsNumeral) && 0 < b
    ensures forall i :: 0 <= i < a + 1 + b && i != a ==> IsNumeral(t[i])
    ensures a + 1 + b == |t| || !IsNumeral(t[a + 1 + b])
  {
    forall i | a < i < a + 1 + b ensures IsNumeral(t[i]) {
      assert t[i] == t[a + 1..][i - a - 1];
    }
    if a + 1 + b < |t| {
      assert t[a + 1 + b] == t[a + 1..][b];
    }
  }

  /** A parenthesised group with no parenthesis inside: a match is such a
      group, wrapped in `\left( ... \right)`; there is none when every `)`
      after an opening `(` has a parenthesis before it inside the group. */
  function MatchParen(t: string): (h: Option<Hit>)
    ensures h.Some? ==> 0 < h.value.len <= |t| && h.value.rep != []
    ensures h.Some? ==> var n := h.value.len;
              && 3 <= n && t[0] == '(' && t[n - 1] == ')'
              && (forall i :: 1 <= i < n - 1 ==> IsNotParen(t[i]))
              && h.value.rep == "\\left(" + t[1..n - 1] + "\\right)"
    ensures h.None? && t != [] && t[0] == '(' ==>
              forall n :: 2 <= n < |t| && t[n] == ')' ==> exists i :: 1 <= i < n && !IsNotParen(t[i])
  {
    if t == [] || t[0] != '(' then None
    else
      var k := Span(t[1..], IsNotParen);
      if k == 0 || 1 + k >= |t| || t[1 + k] != ')' then None
      else Some(Hit(k + 2, "\\left(" + t[1..1 + k] + "\\right)"))
  }

  /** One of `+`, `-`, `*`, surrounded by spaces. */
  function MatchOperator(t: string): (h: Option<Hit>)
    ensures h.Some? ==> 0 < h.value.len <= |t| && h.value.rep != []
    ensures h.Some? <==> t != [] && t[0] in "+-*"
    ensures h.Some? ==> h.value.len == 1 && h.value.rep == [' ', t[0], ' ']
  {
    if t != [] && t[0] in "+-*" then Some(Hit(1, [' ', t[0], ' '])) else None
  }

  /** `s.replace(pattern, replacement)` with the `/g` flag: try the pattern at
      each position from the left, and resume after each replaced match. */
  function Apply(rule: Rule, s: string): (r: string)
    ensures s == [] <==> r == []
    decreases |s|
  {
    if s == [] then []
    else
      match Match(rule, s)
      case Some(h) => h.rep + Apply(rule, s[h.len..])
      case None => [s[0]] + Apply(rule, s[1..])
  }

  lemma SliceChars(t: string, i: nat, j: nat)
    requires i <= j <= |t|
    ensures forall c :: c in t[i..j] ==> c in t
  {
  }

  /** A replacement only copies characters of its match or adds the rule's
      own characters. */
  lemma MatchAlphabet(rule: Rule, t: string)
    requires Match(rule, t).Some?
    ensures forall c :: c in Match(rule, t).value.rep ==> c in t || c in Introduced(rule)
  {
    match rule
    case Calls => CallAlphabet(t);
    case Exponent => ExponentAlphabet(t);
    case Fraction => FractionAlphabet(t);
    case Paren => ParenAlphabet(t);
    case Operators => assert t[0] in t;
  }

  lemma CallAlphabet(t: string)
    requires MatchCall(t).Some?
    ensures forall c :: c in MatchCall(t).value.rep ==> c in t || c in Introduced(Calls)
  {
    var n := Span(t, IsLower);
    var k := Span(t[n + 1..], IsNotClose);
    MatchCallAt(t, n, k);
    SliceChars(t, 0, n);
    SliceChars(t, n + 1, n + 1 + k);
    SliceChars(t, 0, n + 2 + k);
  }

  lemma ExponentAlphabet(t: string)
    requires MatchExponent(t).Some?
    ensures forall c :: c in MatchExponent(t).value.rep ==> c in t || c in Introduced(Exponent)
  {
    var k := Span(t[1..], IsDigit);
    SliceChars(t, 1, 1 + k);
    assert '^' in t by { assert t[0] == '^'; }
  }

  lemma FractionAlphabet(t: string)
    requires MatchFraction(t).Some?
    ensures forall c :: c in MatchFraction(t).value.rep ==> c in t || c in Introduced(Fraction)
  {
    var a := Span(t, IsNumeral);
    var b := Span(t[a + 1..], IsNumeral);
    SliceChars(t, 0, a);
    SliceChars(t, a + 1, a + 1 + b);
  }

  lemma ParenAlphabet(t: string)
    requires MatchParen(t).Some?
    ensures forall c :: c in MatchParen(t).value.rep ==> c in t || c in Introduced(Paren)
  {
    var k := Span(t[1..], IsNotParen);
    SliceChars(t, 1, 1 + k);
  }

  /** Every step of the chain only copies its input and adds its own
      characters. */
  lemma {:induction false} ApplyAlphabet(rule: Rule, s: string)
    ensures forall c :: c in Apply(rule, s) ==> c in s || c in Introduced(rule)
    decreases |s|
  {
    if s != [] {
      match Match(rule, s)
      case Some(h) =>
        MatchAlphabet(rule, s);
        ApplyAlphabet(rule, s[h.len..]);
        SliceChars(s, h.len, |s|);
      case None =>
        ApplyAlphabet(rule, s[1..]);
        SliceChars(s, 1, |s|);
    }
  }

  /** A guarded text between two guarded delimiters stays guarded when the
      left one does not end with `^` and the right one does not start with a
      digit. */
  lemma Enclosed(pre: string, mid: string, post: string)
    requires pre != [] && post != []
    requires NoCaretDigit(pre) && NoCaretDigit(mid) && NoCaretDigit(post)
    requires pre[|pre| - 1] != '^' && !IsDigit(post[0])
    ensures NoCaretDigit(pre + mid + post)
    ensures (pre + mid + post)[0] == pre[0]
    ensures (pre + mid + post)[|pre + mid + post| - 1] == post[|post| - 1]
  {
    NoCaretDigitConcat(pre, mid);
    if mid == [] {
      assert pre + mid == pre;
    }
    NoCaretDigitConcat(pre + mid, post);
  }

  /** A replacement that starts with no digit, ends with no `^` and keeps
      every `^` away from a digit. */
  predicate SafeReplacement(rep: string) {
    rep != [] && NoCaretDigit(rep) && !IsDigit(rep[0]) && rep[|rep| - 1] != '^'
  }

  lemma CallKeepsCaretGuard(t: string)
    requires MatchCall(t).Some? && NoCaretDigit(t)
    ensures SafeReplacement(MatchCall(t).value.rep)
  {
    var n := Span(t, IsLower);
    var k := Span(t[n + 1..], IsNotClose);
    assert 0 < n < |t| && t[n] == '(' && 0 < k && n + 1 + k < |t|;
    assert t[n + 1..][k] == t[n + 1 + k];
    MatchCallAt(t, n, k);
    CallHitIsSafe(t, n, k);
  }

  /** The replacement of a call found in guarded text is safe. */
  lemma CallHitIsSafe(t: string, n: nat, k: nat)
    requires 0 < n && n + 1 + k < |t| && NoCaretDigit(t)
    requires IsLower(t[0]) && t[n + 1 + k] == ')'
    ensures SafeReplacement(CallHit(t, n, k).rep)
  {
    var call := t[..n + 2 + k];
    CaretGuardOnSlice(t, 0, n);
    CaretGuardOnSlice(t, n + 1, n + 1 + k);
    CaretGuardOnSlice(t, 0, n + 2 + k);
    assert call[0] == t[0];
    assert call[|call| - 1] == t[n + 1 + k];
    CallRepIsSafe(t[..n], t[n + 1..n + 1 + k], call);
  }

  lemma CallRepIsSafe(name: string, args: string, call: string)
    requires NoCaretDigit(name) && NoCaretDigit(args) && SafeReplacement(call)
    ensures SafeReplacement(CallRep(name, args, call))
  {
    if name in KnownFunctions {
      Enclosed("\\", name, "{");
      Enclosed("\\" + name + "{", args, "}");
    }
  }

  lemma ExponentRepIsSafe(t: string)
    requires MatchExponent(t).Some?
    ensures SafeReplacement(MatchExponent(t).value.rep)
  {
    var k := Span(t[1..], IsDigit);
    var digits := t[1..1 + k];
    assert NoCaretDigit(digits);
    Enclosed("^{", digits, "}");
  }

  lemma FractionRepIsSafe(t: string)
    requires MatchFraction(t).Some?
    ensures SafeReplacement(MatchFraction(t).value.rep)
  {
    var a := Span(t, IsNumeral);
    var b := Span(t[a + 1..], IsNumeral);
    var num := t[..a];
    var den := t[a + 1..a + 1 + b];
    assert NoCaretDigit(num) && NoCaretDigit(den);
    Enclosed("\\frac{", num, "}{");
    Enclosed("\\frac{" + num + "}{", den, "}");
  }

  lemma ParenKeepsCaretGuard(t: string)
    requires MatchParen(t).Some? && NoCaretDigit(t)
    ensures SafeReplacement(MatchParen(t).value.rep)
  {
    var k := Span(t[1..], IsNotParen);
    var inner := t[1..1 + k];
    CaretGuardOnSlice(t, 1, 1 + k);
    Enclosed("\\left(", inner, "\\right)");
  }

  /** Every replacement of the chain keeps every `^` away from a digit. */
  lemma MatchKeepsCaretGuard(rule: Rule, t: string)
    requires Match(rule, t).Some?
    requires rule == Exponent || NoCaretDigit(t)
    ensures SafeReplacement(Match(rule, t).value.rep)
  {
    match rule
    case Calls => CallKeepsCaretGuard(t);
    case Exponent => ExponentRepIsSafe(t);
    case Fraction => FractionRepIsSafe(t);
    case Paren => ParenKeepsCaretGuard(t);
    case Operators =>
  }

  /** No step of the chain puts a digit right after a `^` that lacked one. */
  lemma {:induction false} ApplyKeepsCaretGuard(rule: Rule, s: string)
    requires NoCaretDigit(s)
    ensures NoCaretDigit(Apply(rule, s))
    decreases |s|
  {
    if s != [] {
      match Match(rule, s)
      case Some(h) =>
        MatchKeepsCaretGuard(rule, s);
        CaretGuardOnSlice(s, h.len, |s|);
        ApplyKeepsCaretGuard(rule, s[h.len..]);
        NoCaretDigitConcat(h.rep, Apply(rule, s[h.len..]));
      case None =>
        CaretGuardOnSlice(s, 1, |s|);
        ApplyKeepsCaretGuard(rule, s[1..]);
        if |s| >= 2 && Match(rule, s[1..]).Some? {
          MatchKeepsCaretGuard(rule, s[1..]);
        }
        NoCaretDigitConcat([s[0]], Apply(rule, s[1..]));
    }
  }

  /** Where the exponent pattern finds no match, a `^` is not followed by a
      digit. */
  lemma ExponentMissMeansNoDigit(t: string)
    requires |t| >= 2 && t[0] == '^' && Match(Exponent, t).None?
    ensures !IsDigit(t[1])
  {
    assert t[1..][0] == t[1];
  }

  /** The exponent step leaves no `^` directly before a digit, whatever its
      input. */
  lemma {:induction false} ExponentEstablishesCaretGuard(s: string)
    ensures NoCaretDigit(Apply(Exponent, s))
    decreases |s|
  {
    if s != [] {
      match Match(Exponent, s)
      case Some(h) =>
        MatchKeepsCaretGuard(Exponent, s);
        ExponentEstablishesCaretGuard(s[h.len..]);
        NoCaretDigitConcat(h.rep, Apply(Exponent, s[h.len..]));
      case None =>
        ExponentEstablishesCaretGuard(s[1..]);
        if |s| >= 2 {
          if s[0] == '^' {
            ExponentMissMeansNoDigit(s);
          }
          if Match(Exponent, s[1..]).Some? {
            MatchKeepsCaretGuard(Exponent, s[1..]);
          }
        }
        NoCaretDigitConcat([s[0]], Apply(Exponent, s[1..]));
    }
  }

  /** On a text already guarded the exponent step changes nothing; with the
      lemma above, the step is idempotent. */
  lemma {:induction false} ExponentIdleOnGuarded(s: string)
    requires NoCaretDigit(s)
    ensures Apply(Exponent, s) == s
    decreases |s|
  {
    if s != [] {
      assert Match(Exponent, s).None? by {
        if |s| >= 2 && s[0] == '^' {
          assert !IsDigit(s[1]);
          assert s[1..][0] == s[1];
        }
      }
      CaretGuardOnSlice(s, 1, |s|);
      ExponentIdleOnGuarded(s[1..]);
      SplitHead(s);
    }
  }

  lemma ExponentIdempotent(s: string)
    ensures Apply(Exponent, Apply(Exponent, s)) == Apply(Exponent, s)
  {
    ExponentEstablishesCaretGuard(s);
    ExponentIdleOnGuarded(Apply(Exponent, s));
  }

  /** The call step on `name(args)`: a known name becomes `\name{args}`, any
      other call is copied unchanged, and the scan resumes after the `)`. */
  lemma CallStep(name: string, args: string, rest: string)
    requires name != [] && forall k :: 0 <= k < |name| ==> IsLower(name[k])
    requires args != [] && ')' !in args
    ensures var call := name + "(" + args + ")";
            Apply(Calls, call + rest)
            == (if name in KnownFunctions then "\\" + name + "{" + args + "}" else call) + Apply(Calls, rest)
  {
    var call := name + "(" + args + ")";
    var t := call + rest;
    CallMatches(name, args, rest);
    assert t[|call|..] == rest;
  }

  lemma CallMatches(name: string, args: string, rest: string)
    requires name != [] && forall k :: 0 <= k < |name| ==> IsLower(name[k])
    requires args != [] && ')' !in args
    ensures var call := name + "(" + args + ")";
            MatchCall(call + rest) == Some(Hit(|call|, CallRep(name, args, call)))
  {
    var call := name + "(" + args + ")";
    CallSpans(name, args, rest);
    MatchCallAt(call + rest, |name|, |args|);
  }

  /** The call pattern matches wherever a lowercase run is followed by `(`
      and a non-empty run without `)` that a `)` closes. */
  lemma MatchCallAt(t: string, n: nat, k: nat)
    requires 0 < n < |t| && n == Span(t, IsLower) && t[n] == '('
    requires 0 < k && n + 1 + k < |t| && k == Span(t[n + 1..], IsNotClose)
    ensures MatchCall(t) == Some(CallHit(t, n, k))
  {
  }

  /** The two class runs of the call pattern on `name(args)`. */
  lemma CallSpans(name: string, args: string, rest: string)
    requires name != [] && forall k :: 0 <= k < |name| ==> IsLower(name[k])
    requires args != [] && ')' !in args
    ensures var t := name + "(" + args + ")" + rest;
            var n := |name|;
            && Span(t, IsLower) == n && t[n] == '('
            && Span(t[n + 1..], IsNotClose) == |args| && n + 1 + |args| < |t|
            && t[..n] == name && t[n + 1..n + 1 + |args|] == args
            && t[..n + 2 + |args|] == name + "(" + args + ")"
  {
    var call := name + "(" + args + ")";
    var t := call + rest;
    var n := |name|;
    assert t[..n] == name && t[n] == '(';
    SpanStops(t, IsLower, n);
    var u := t[n + 1..];
    assert u[..|args|] == args && u[|args|] == ')';
    assert forall k :: 0 <= k < |args| ==> IsNotClose(u[k]) by {
      forall k | 0 <= k < |args| ensures IsNotClose(u[k]) {
        assert u[k] == args[k] && args[k] in args;
      }
    }
    SpanStops(u, IsNotClose, |args|);
    assert t[n + 1..n + 1 + |args|] == args;
    assert t[..n + 2 + |args|] == call;
  }

  /** The span of a class is the length of a prefix inside it that ends at a
      character outside it. */
  lemma SpanStops(s: string, p: char -> bool, n: nat)
    requires n < |s| && !p(s[n])
    requires forall k :: 0 <= k < n ==> p(s[k])
    ensures Span(s, p) == n
    decreases n
  {
    if n > 0 {
      SpanStops(s[1..], p, n - 1);
    }
  }

  /** Without an opening parenthesis the call step has nothing to match. */
  lemma {:induction false} CallsIdleWithoutParen(s: string)
    requires '(' !in s
    ensures Apply(Calls, s) == s
    decreases |s|
  {
    if s != [] {
      NoCallWithoutParen(s);
      assert '(' !in s[1..] by {
        assert forall c :: c in s[1..] ==> c in s;
      }
      CallsIdleWithoutParen(s[1..]);
      SplitHead(s);
    }
  }

  /** A call needs an opening parenthesis. */
  lemma NoCallWithoutParen(s: string)
    requires '(' !in s
    ensures Match(Calls, s).None?
  {
    var n := Span(s, IsLower);
    if n < |s| {
      assert s[n] in s;
    }
  }

  /** The operator step only inserts spaces. */
  lemma {:induction false} OperatorsInsertOnlySpaces(s: string)
    ensures Remove(Apply(Operators, s), IsBlank) == Remove(s, IsBlank)
    decreases |s|
  {
    if s != [] {
      OperatorsInsertOnlySpaces(s[1..]);
      SplitHead(s);
      RemoveConcat([s[0]], s[1..], IsBlank);
      match Match(Operators, s)
      case Some(h) =>
        var rep := [' ', s[0], ' '];
        RemoveConcat(rep, Apply(Operators, s[1..]), IsBlank);
        assert s[0] in "+-*";
        RemoveAround(' ', s[0], IsBlank);
      case None =>
        RemoveConcat([s[0]], Apply(Operators, s[1..]), IsBlank);
    }
  }

  /** Lines 24-27: trim, then collapse whitespace runs. The result is empty
      only for an all-whitespace input, starts with a non-space, and has no
      two whitespace characters in a row. */
  function Front(expression: string): (r: string)
    ensures r == [] <==> forall k :: 0 <= k < |expression| ==> IsSpace(expression[k])
    ensures r != [] ==> !IsSpace(r[0])
    ensures NoSpaceRun(r)
  {
    CollapseSpacesSeparates(Trim(expression));
    CollapseSpaces(Trim(expression))
  }

  /** Lines 32-41: function calls, then the three exponent rules. Afterwards
      no `^` stands before a digit. */
  function Powers(s: string): (r: string)
    ensures NoCaretDigit(r)
  {
    var literals := ReplaceAll(ReplaceAll(Apply(Calls, s), "^2", "^{2}"), "^3", "^{3}");
    ExponentEstablishesCaretGuard(literals);
    Apply(Exponent, literals)
  }

  /** The literal exponent rules of lines 39-40 leave no `^2`, respectively
      no `^3`: the braces they insert cannot form a new one at a seam. */
  lemma ExponentLiteralsCleared(s: string)
    ensures NoPair(ReplaceAll(s, "^2", "^{2}"), '^', '2')
    ensures NoPair(ReplaceAll(s, "^3", "^{3}"), '^', '3')
  {
    assert "^2" == ['^', '2'] && "^3" == ['^', '3'];
    ReplaceAllClearsPair(s, '^', '2', "^{2}");
    ReplaceAllClearsPair(s, '^', '3', "^{3}");
  }

  /** Lines 43-46: fractions, then implicit and explicit products. No `*`
      is left. */
  function Products(s: string): (r: string)
    ensures '*' !in r
  {
    var products := DigitLetter(Apply(Fraction, s), "\\cdot ");
    ReplaceAllRemovesChar(products, '*', "\\cdot ");
    ReplaceAll(products, "*", "\\cdot ")
  }

  /** Lines 48-58: groups, doubled backslashes, operator spacing, cleanup.
      The result neither starts nor ends with whitespace. */
  function Finish(s: string): (r: string)
    ensures r != [] ==> !IsSpace(r[0]) && !IsSpace(r[|r| - 1])
  {
    Trim(CollapseSpaces(Apply(Operators, ReplaceAll(Apply(Paren, s), "\\\\", "\\"))))
  }

  /** The general path of lines 24-58. Its answer is always `Tidy`. */
  function Pipeline(expression: string): (r: string)
    ensures Tidy(r)
  {
    var powers := Powers(Front(expression));
    ProductsGuarded(powers);
    FinishGuarded(Products(powers));
    Finish(Products(powers))
  }

  /** `convertToLatex(expression)`: the empty text stays empty, the three
      common functions have fixed answers (compared before trimming), and
      everything else goes through the chain; nothing in it throws, so the
      `catch` of lines 61-65 is dead. */
  function ConvertToLatex(expression: string): (r: string)
    ensures expression == [] ==> r == []
    ensures expression == SumOfSquaresText ==> r == SumOfSquaresText
    ensures expression == DifferenceOfSquaresText ==> r == DifferenceOfSquaresText
    ensures expression == SinCosText ==> r == SinCosLatex
    ensures (expression != [] && expression != SumOfSquaresText
             && expression != DifferenceOfSquaresText && expression != SinCosText) ==> Tidy(r)
  {
    if expression == [] then []
    else if expression == SumOfSquaresText then SumOfSquaresText
    else if expression == DifferenceOfSquaresText then DifferenceOfSquaresText
    else if expression == SinCosText then SinCosLatex
    else Pipeline(expression)
  }

  /** The product rules keep that guard and leave no `*`. */
  lemma ProductsGuarded(s: string)
    requires NoCaretDigit(s)
    ensures NoCaretDigit(Products(s)) && '*' !in Products(s)
  {
    var fractions := Apply(Fraction, s);
    var products := DigitLetter(fractions, "\\cdot ");
    ApplyKeepsCaretGuard(Fraction, s);
    DigitLetterKeepsCaretGuard(fractions, "\\cdot ");
    ReplaceAllKeepsCaretGuard(products, "*", "\\cdot ");
  }

  /** The shape every answer of the general path has: no `^` directly before
      a digit, no `*` left, no whitespace at either end, and never two
      whitespace characters in a row. */
  predicate Tidy(r: string) {
    && NoCaretDigit(r)
    && '*' !in r
    && (r != [] ==> !IsSpace(r[0]) && !IsSpace(r[|r| - 1]))
    && NoSpaceRun(r)
  }

  /** Groups and doubled backslashes keep both guards. */
  lemma SlashesGuarded(s: string)
    requires NoCaretDigit(s) && '*' !in s
    ensures var t := ReplaceAll(Apply(Paren, s), "\\\\", "\\");
            NoCaretDigit(t) && '*' !in t
  {
    GroupsGuarded(s);
    ReplaceAllKeepsCaretGuard(Apply(Paren, s), "\\\\", "\\");
  }

  /** The group rule keeps both guards. */
  lemma GroupsGuarded(s: string)
    requires NoCaretDigit(s) && '*' !in s
    ensures NoCaretDigit(Apply(Paren, s)) && '*' !in Apply(Paren, s)
  {
    ApplyKeepsCaretGuard(Paren, s);
    ApplyAlphabet(Paren, s);
  }

  /** Operator spacing and the collapse keep both guards and leave no run of
      whitespace. */
  lemma SpacingGuarded(t: string)
    requires NoCaretDigit(t) && '*' !in t
    ensures var u := CollapseSpaces(Apply(Operators, t));
            NoCaretDigit(u) && '*' !in u && NoSpaceRun(u)
  {
    var spaced := Apply(Operators, t);
    ApplyKeepsCaretGuard(Operators, t);
    CollapseSpacesKeepsCaretGuard(spaced);
    ApplyAlphabet(Operators, t);
    CollapseSpacesSeparates(spaced);
  }

  /** The last rules keep both guards, and the cleanup leaves single spaces
      between words and none at the ends. */
  lemma FinishGuarded(s: string)
    requires NoCaretDigit(s) && '*' !in s
    ensures Tidy(Finish(s))
  {
    var slashes := ReplaceAll(Apply(Paren, s), "\\\\", "\\");
    SlashesGuarded(s);
    SpacingGuarded(slashes);
    TrimmedIsTidy(CollapseSpaces(Apply(Operators, slashes)));
  }

  /** The final `trim` keeps both guards and the single spacing, and strips
      the ends. */
  lemma TrimmedIsTidy(u: string)
    requires NoCaretDigit(u) && '*' !in u && NoSpaceRun(u)
    ensures Tidy(Trim(u))
  {
    TrimKeepsGuards(u);
  }
}

=== FILE: oracle.dfy ===
/** The parts of the `mathjs` library the analyzer calls, kept uninterpreted:
    the model never looks inside them, it only passes them around. Every call
    that can throw returns an `Outcome`, whose `Err` carries the error message. */
module Oracle {

  datatype Option<+T> = None | Some(value: T)

  datatype Outcome<+T> = Ok(value: T) | Err(msg: string)

  /** An expression tree built by `math.parse` or `math.derivative`. */
  datatype Node = Node(handle: nat)

  /** `math.compile(text)` (only whether it throws, and with what message),
      `compiled.evaluate({x, y})` for text that compiled, `math.parse`,
      `math.derivative(tree, variableTree)` and `tree.toString()`. */
  datatype MathJs = MathJs(
    compile: string -> Outcome<()>,
    evaluate: (string, real, real) -> Outcome<real>,
    parse: string -> Outcome<Node>,
    derivative: (Node, Node) -> Outcome<Node>,
    show: Node -> string)

  /** An object with an `evaluate({x, y})` method, as the analyzer builds them:
      compiled by mathjs from some text, the hand-written `x*x + y*y` fallback,
      or one of the fixed derivative-table entries (`'2*x'`, `'-2*y'`, `'2'`,
      `'0'`, ...), all of which are `cx*x + cy*y + c0`. */
  datatype EvalFn =
    | Compiled(code: string)
    | SumOfSquares
    | Linear(cx: real, cy: real, c0: real)

  function Evaluate(m: MathJs, f: EvalFn, x: real, y: real): Outcome<real> {
    match f
    case Compiled(code) => m.evaluate(code, x, y)
    case SumOfSquares => Ok(x * x + y * y)
    case Linear(cx, cy, c0) => Ok(cx * x + cy * y + c0)
  }

  /** The text compiles and its compiled form evaluates at the origin. */
  predicate Probed(m: MathJs, code: string) {
    m.compile(code).Ok? && m.evaluate(code, 0.0, 0.0).Ok?
  }

  /** `const fn = math.compile(code); fn.evaluate({x: 0, y: 0})` inside one
      `try`: the first error thrown by either call is the outcome. */
  function CompileAndProbe(m: MathJs, code: string): (r: Outcome<EvalFn>)
    ensures r.Ok? <==> Probed(m, code)
    ensures r.Ok? ==> r.value == Compiled(code)
    ensures r.Err? ==> r.msg == (if m.compile(code).Err? then m.compile(code).msg
                                 else m.evaluate(code, 0.0, 0.0).msg)
  {
    match m.compile(code)
    case Err(e) => Err(e)
    case Ok(_) =>
      match m.evaluate(code, 0.0, 0.0)
      case Err(e) => Err(e)
      case Ok(_) => Ok(Compiled(code))
  }
}

=== FILE: parse.dfy ===
/** `parseFunction` (src/lib/math/criticalPoints.ts): validation, the
    hard-coded `x^2 + y^2` shortcut, the comma and `f(x,y)` repairs, and the
    chain of compile attempts with its fallbacks. */
module Parse {
  import opened Chars
  import opened Rewrite
  import opened Oracle
  import opened Known

  /** What `parseFunction` returns: an evaluable function and the text it
      reports for it. */
  datatype FuncObj = FuncObj(fn: EvalFn, expression: string)

  const ErrorPrefix: string := "Error parsing function: "
  const FunctionNotation: string := "f(x,y)"
  const CharThreeMessage: string := "Value expected (char 3)"
  const MissingMessage: string := "Expression must be a non-empty string"
  const BlankMessage: string := "Expression cannot be empty"
  const InvalidMessage: string := "Invalid characters in expression: "

  /** The accepted alphabet: ASCII letters and digits, whitespace, and the
      nine characters `+ - * / ( ) ^ . ,`. */
  predicate IsAllowed(c: char) {
    IsLetter(c) || IsDigit(c) || IsSpace(c) || c in "+-*/()^.,"
  }

  /** The global match of the complement of the accepted alphabet: the
      offending characters, in order and with repetitions. */
  function InvalidChars(s: string): (r: string)
    ensures |r| <= |s|
    ensures forall c :: c in r <==> c in s && !IsAllowed(c)
    ensures r == [] <==> forall k :: 0 <= k < |s| ==> IsAllowed(s[k])
  {
    if s == [] then []
    else (if IsAllowed(s[0]) then [] else [s[0]]) + InvalidChars(s[1..])
  }

  /** `chars.join(', ')`: the characters at every third position, with `", "`
      between consecutive ones. */
  function JoinChars(cs: string): (r: string)
    ensures cs == [] ==> r == []
    ensures cs != [] ==> |r| == 3 * |cs| - 2
    ensures forall i :: 0 <= i < |r| ==>
              r[i] == (if i % 3 == 0 then cs[i / 3] else if i % 3 == 1 then ',' else ' ')
    ensures forall c :: c in cs ==> c in r
  {
    if cs == [] then []
    else if |cs| == 1 then cs
    else
      var rest := JoinChars(cs[1..]);
      [cs[0]] + ", " + rest
  }

  /** `s.replace(/,/g, '.')`. */
  function CommasToDots(s: string): (r: string)
    ensures |r| == |s|
    ensures forall k :: 0 <= k < |s| ==> r[k] == (if s[k] == ',' then '.' else s[k])
  {
    if s == [] then []
    else [if s[0] == ',' then '.' else s[0]] + CommasToDots(s[1..])
  }

  /** `/[a-zA-Z]\^2/.test(s)`. */
  predicate HasSquare(s: string) {
    exists k :: 0 <= k < |s| && SquareAt(s, k)
  }

  predicate SquareAt(s: string, k: int) {
    0 <= k < |s| - 2 && IsLetter(s[k]) && s[k + 1] == '^' && s[k + 2] == '2'
  }

  /** `s.replace(/([a-zA-Z])\^2/g, '$1*$1')`: every `L^2` becomes `L*L`,
      and every character outside such a match is kept in place. */
  function SquaresToProducts(s: string): (r: string)
    ensures |r| == |s|
    ensures forall k :: 0 <= k < |s| ==>
              || r[k] == s[k]
              || (s[k] == '^' && r[k] == '*')
              || (s[k] == '2' && IsLetter(r[k]))
    decreases |s|
  {
    if |s| >= 3 && IsLetter(s[0]) && s[1] == '^' && s[2] == '2' then
      var rest := SquaresToProducts(s[3..]);
      [s[0], '*', s[0]] + rest
    else if s == [] then []
    else [s[0]] + SquaresToProducts(s[1..])
  }

  /** Every match `L^2` becomes `L*L`. */
  lemma {:induction false} SquaresRewriteMatches(s: string)
    ensures forall k :: SquareAt(s, k) ==> SquaresToProducts(s)[k] == s[k]
    ensures forall k :: SquareAt(s, k) ==> SquaresToProducts(s)[k + 1] == '*'
    ensures forall k :: SquareAt(s, k) ==> SquaresToProducts(s)[k + 2] == s[k]
    decreases |s|
  {
    var r := SquaresToProducts(s);
    if |s| >= 3 && IsLetter(s[0]) && s[1] == '^' && s[2] == '2' {
      var t := s[3..];
      SquaresRewriteMatches(t);
      assert r == [s[0], '*', s[0]] + SquaresToProducts(t);
      forall k | SquareAt(s, k) && k >= 3 ensures SquareAt(t, k - 3) { }
    } else if s != [] {
      var t := s[1..];
      SquaresRewriteMatches(t);
      assert r == [s[0]] + SquaresToProducts(t);
      forall k | SquareAt(s, k) ensures SquareAt(t, k - 1) {
        assert k != 0;
      }
    }
  }

  /** Every character outside a match `L^2` is kept in place. */
  lemma {:induction false} SquaresKeepOthers(s: string)
    ensures forall k :: 0 <= k < |s| && !SquareAt(s, k - 1) && !SquareAt(s, k - 2) ==>
              SquaresToProducts(s)[k] == s[k]
    decreases |s|
  {
    var r := SquaresToProducts(s);
    if |s| >= 3 && IsLetter(s[0]) && s[1] == '^' && s[2] == '2' {
      var t := s[3..];
      SquaresKeepOthers(t);
      assert r == [s[0], '*', s[0]] + SquaresToProducts(t);
      forall k | 3 <= k < |s| && !SquareAt(s, k - 1) && !SquareAt(s, k - 2) ensures r[k] == s[k] {
        assert !SquareAt(t, k - 4) && !SquareAt(t, k - 5);
      }
    } else if s != [] {
      var t := s[1..];
      SquaresKeepOthers(t);
      assert r == [s[0]] + SquaresToProducts(t);
      forall k | 1 <= k < |s| && !SquareAt(s, k - 1) && !SquareAt(s, k - 2) ensures r[k] == s[k] {
        assert !SquareAt(t, k - 2) && !SquareAt(t, k - 3);
      }
    }
  }

  /** The square rewrite changes the text exactly when the square test matches. */
  lemma {:induction false} SquaresRewriteIffTest(s: string)
    ensures SquaresToProducts(s) != s <==> HasSquare(s)
    decreases |s|
  {
    if |s| >= 3 && IsLetter(s[0]) && s[1] == '^' && s[2] == '2' {
      assert SquaresToProducts(s)[1] == '*';
      assert SquareAt(s, 0);
    } else if s != [] {
      var t := s[1..];
      SquaresRewriteIffTest(t);
      assert HasSquare(t) <==> HasSquare(s) by {
        if HasSquare(t) {
          var k :| 0 <= k < |t| && SquareAt(t, k);
          assert s[k + 1] == t[k] && s[k + 2] == t[k + 1] && s[k + 3] == t[k + 2];
          assert SquareAt(s, k + 1);
        }
        if HasSquare(s) {
          var k :| 0 <= k < |s| && SquareAt(s, k);
          assert k != 0;
          assert s[k] == t[k - 1] && s[k + 1] == t[k] && s[k + 2] == t[k + 1];
          assert SquareAt(t, k - 1);
        }
      }
      assert SquaresToProducts(s) == [s[0]] + SquaresToProducts(t);
      assert s == [s[0]] + t;
    } else {
      assert !SquareAt(s, 0);
    }
  }

  /** `s.replace(/\^/g, '**')`. */
  function CaretToPower(s: string): (r: string)
    ensures '^' !in r
    ensures forall c :: c in r ==> c in s || c == '*'
  {
    if s == [] then []
    else (if s[0] == '^' then "**" else [s[0]]) + CaretToPower(s[1..])
  }

  /** `^` becomes `**` wherever it stands: the rewrite distributes over
      concatenation, and on one character it is the replacement itself. */
  lemma {:induction false} CaretToPowerConcat(a: string, b: string)
    ensures CaretToPower(a + b) == CaretToPower(a) + CaretToPower(b)
    decreases |a|
  {
    if a == [] {
      assert a + b == b;
    } else {
      assert (a + b)[1..] == a[1..] + b;
      CaretToPowerConcat(a[1..], b);
    }
  }

  lemma CaretToPowerOne(c: char)
    ensures CaretToPower([c]) == if c == '^' then "**" else [c]
  {
    assert [c][1..] == [];
  }

  predicate IsStarOrSpace(c: char) { c == '*' || IsSpace(c) }
  predicate IsCaretStarOrSpace(c: char) { c == '^' || c == '*' || IsSpace(c) }

  /** Apart from `^`, `*` and whitespace, the power rewrite keeps every
      character in order. */
  lemma {:induction false} CaretToPowerKeepsContent(p: string)
    ensures Remove(CaretToPower(p), IsStarOrSpace) == Remove(p, IsCaretStarOrSpace)
    decreases |p|
  {
    if p != [] {
      var head := if p[0] == '^' then "**" else [p[0]];
      CaretToPowerKeepsContent(p[1..]);
      RemoveConcat(head, CaretToPower(p[1..]), IsStarOrSpace);
      RemoveConcat([p[0]], p[1..], IsCaretStarOrSpace);
      SplitHead(p);
      RemoveOne(p[0], IsCaretStarOrSpace);
      if p[0] == '^' {
        assert Remove(head, IsStarOrSpace) == [] by {
          RemoveConcat(['*'], ['*'], IsStarOrSpace);
          RemoveOne('*', IsStarOrSpace);
          assert head == ['*'] + ['*'];
        }
      } else {
        RemoveOne(p[0], IsStarOrSpace);
      }
    }
  }

  /** Deleting two classes one after the other deletes their union. */
  lemma {:induction false} RemoveTwice(s: string, p: char -> bool, q: char -> bool, pq: char -> bool)
    requires forall c :: pq(c) == (p(c) || q(c))
    ensures Remove(Remove(s, p), q) == Remove(s, pq)
    decreases |s|
  {
    if s != [] {
      RemoveTwice(s[1..], p, q, pq);
      var head := if p(s[0]) then [] else [s[0]];
      RemoveConcat(head, Remove(s[1..], p), q);
      if !p(s[0]) {
        RemoveOne(s[0], q);
      }
    }
  }

  /** The preprocessing of lines 84-87: `^` becomes `**`, whitespace runs become
      one space, and `*` is put between a digit and a following letter. */
  function Normalize(p: string): (q: string)
    ensures '^' !in q
    ensures NoSpaceRun(q)
    ensures NoDigitLetter(q)
    ensures forall c :: c in q ==> c in p || c == '*' || c == ' '
  {
    var powered := CaretToPower(p);
    CollapseThenSeparate(powered);
    DigitLetter(CollapseSpaces(powered), "*")
  }

  /** The preprocessing keeps the text's content: apart from `^`, `*` and
      whitespace, the preprocessed text holds the input's characters in order. */
  lemma NormalizeKeepsContent(p: string)
    ensures Remove(Normalize(p), IsStarOrSpace) == Remove(p, IsCaretStarOrSpace)
  {
    var powered := CaretToPower(p);
    var collapsed := CollapseSpaces(powered);
    assert Remove(DigitLetter(collapsed, "*"), IsStarOrSpace) == Remove(collapsed, IsStarOrSpace) by {
      DigitLetterInsertsOnlyStars(collapsed);
      RemoveTwice(DigitLetter(collapsed, "*"), IsStar, IsSpace, IsStarOrSpace);
      RemoveTwice(collapsed, IsStar, IsSpace, IsStarOrSpace);
    }
    assert Remove(collapsed, IsStarOrSpace) == Remove(powered, IsStarOrSpace) by {
      CollapseSpacesKeepsContent(powered);
      RemoveTwice(collapsed, IsSpace, IsStar, IsStarOrSpace);
      RemoveTwice(powered, IsSpace, IsStar, IsStarOrSpace);
    }
    CaretToPowerKeepsContent(p);
  }

  /** The last two preprocessing steps leave single spaces, no digit before
      a letter, and add only spaces and `*`. */
  lemma CollapseThenSeparate(s: string)
    ensures var q := DigitLetter(CollapseSpaces(s), "*");
            && NoSpaceRun(q)
            && NoDigitLetter(q)
            && forall c :: c in q ==> c in s || c == '*' || c == ' '
  {
    var collapsed := CollapseSpaces(s);
    assert NoSpaceRun(DigitLetter(collapsed, "*")) by {
      CollapseSpacesSeparates(s);
      StarIsNoSpace();
      DigitLetterKeepsSpaceRuns(collapsed, "*");
    }
    DigitLetterSeparates(collapsed, "*");
  }

  lemma StarIsNoSpace()
    ensures forall k :: 0 <= k < |"*"| ==> !IsSpace("*"[k])
  {
    assert "*"[0] == '*';
  }

  /** `s.replace(/([a-zA-Z])([a-zA-Z])/g, '$1*$2')`: pairs of letters, taken
      left to right without overlap, get a `*` between them. */
  function LetterLetter(s: string): (r: string)
    ensures s != [] ==> r != [] && r[0] == s[0]
    ensures forall c :: c in r ==> c in s || c == '*'
    decreases |s|
  {
    if |s| >= 2 && IsLetter(s[0]) && IsLetter(s[1]) then
      [s[0], '*', s[1]] + LetterLetter(s[2..])
    else if s == [] then []
    else [s[0]] + LetterLetter(s[1..])
  }

  /** Some letter stands directly before another letter. */
  predicate HasLetterPair(s: string) {
    exists k :: 0 <= k < |s| - 1 && IsLetter(s[k]) && IsLetter(s[k + 1])
  }

  /** The letter-pair rewrite changes the text exactly when two letters are
      adjacent somewhere in it. */
  lemma LetterLetterIdleIff(s: string)
    ensures LetterLetter(s) == s <==> !HasLetterPair(s)
  {
    LetterLetterGrows(s);
    if !HasLetterPair(s) {
      LetterLetterIdle(s);
    }
  }

  /** The rewrite never shortens the text, and lengthens it when a pair exists. */
  lemma {:induction false} LetterLetterGrows(s: string)
    ensures |LetterLetter(s)| >= |s|
    ensures HasLetterPair(s) ==> |LetterLetter(s)| > |s|
    decreases |s|
  {
    if |s| >= 2 && IsLetter(s[0]) && IsLetter(s[1]) {
      LetterLetterGrows(s[2..]);
    } else if s != [] {
      var t := s[1..];
      LetterLetterGrows(t);
      if HasLetterPair(s) {
        var k :| 0 <= k < |s| - 1 && IsLetter(s[k]) && IsLetter(s[k + 1]);
        assert k != 0;
        assert t[k - 1] == s[k] && t[k] == s[k + 1];
        assert HasLetterPair(t);
      }
    }
  }

  /** Without adjacent letters the rewrite changes nothing. */
  lemma {:induction false} LetterLetterIdle(s: string)
    requires !HasLetterPair(s)
    ensures LetterLetter(s) == s
    decreases |s|
  {
    if s != [] {
      var t := s[1..];
      LetterLetterIdle(t);
      assert !(IsLetter(s[0]) && |s| >= 2 && IsLetter(s[1]));
      SplitHead(s);
    }
  }

  /** Splitting letter pairs only inserts `*`. */
  lemma {:induction false} LetterLetterInsertsOnlyStars(s: string)
    ensures Remove(LetterLetter(s), IsStar) == Remove(s, IsStar)
    decreases |s|
  {
    if |s| >= 2 && IsLetter(s[0]) && IsLetter(s[1]) {
      LetterLetterInsertsOnlyStars(s[2..]);
      SplitTwo(s);
      InsertedStep(s[0], '*', s[1], LetterLetter(s[2..]), s[2..], IsStar);
    } else if s != [] {
      LetterLetterInsertsOnlyStars(s[1..]);
      SplitHead(s);
      KeptStep(s[0], LetterLetter(s[1..]), s[1..], IsStar);
    }
  }

  /** Splitting letter pairs creates no digit directly before a letter. */
  lemma {:induction false} LetterLetterKeepsDigitGuard(s: string)
    requires NoDigitLetter(s)
    ensures NoDigitLetter(LetterLetter(s))
    decreases |s|
  {
    if |s| >= 2 && IsLetter(s[0]) && IsLetter(s[1]) {
      DigitGuardOnSlice(s, 2, |s|);
      LetterLetterKeepsDigitGuard(s[2..]);
      var head := [s[0], '*', s[1]];
      assert NoDigitLetter(head);
      NoDigitLetterConcat(head, LetterLetter(s[2..]));
    } else if s != [] {
      DigitGuardOnSlice(s, 1, |s|);
      LetterLetterKeepsDigitGuard(s[1..]);
      NoDigitLetterConcat([s[0]], LetterLetter(s[1..]));
    }
  }

  /** `s.replace(/\(([^)]+)\)/g, m => m.replace(/([0-9])([a-zA-Z])/g, '$1*$2'))`:
      inside each parenthesised group that reaches the first `)` after its `(`,
      a `*` is put between a digit and a following letter. */
  function ParenDigitLetter(s: string): (r: string)
    ensures forall c :: c in r ==> c in s || c == '*'
    decreases |s|
  {
    if s == [] then []
    else
      var k := Span(s[1..], IsNotClose);
      if s[0] == '(' && 0 < k < |s| - 1 then
        DigitLetter(s[..k + 2], "*") + ParenDigitLetter(s[k + 2..])
      else [s[0]] + ParenDigitLetter(s[1..])
  }

  /** On text without a digit-letter pair the parenthesis step changes nothing. */
  lemma {:induction false} ParenDigitLetterIdle(s: string)
    requires NoDigitLetter(s)
    ensures ParenDigitLetter(s) == s
    decreases |s|
  {
    if s != [] {
      var k := Span(s[1..], IsNotClose);
      if s[0] == '(' && 0 < k < |s| - 1 {
        DigitGuardOnSlice(s, k + 2, |s|);
        ParenDigitLetterIdle(s[k + 2..]);
        DigitGuardOnSlice(s, 0, k + 2);
        GroupIdle(s, k);
      } else {
        DigitGuardOnSlice(s, 1, |s|);
        ParenDigitLetterIdle(s[1..]);
        PlainIdle(s, k);
      }
    }
  }

  /** The step of the proof above for a character outside a group. */
  lemma PlainIdle(s: string, k: nat)
    requires s != [] && k == Span(s[1..], IsNotClose)
    requires !(s[0] == '(' && 0 < k < |s| - 1)
    requires ParenDigitLetter(s[1..]) == s[1..]
    ensures ParenDigitLetter(s) == s
  {
    SplitHead(s);
  }

  /** The step of the proof above for a parenthesised group. */
  lemma GroupIdle(s: string, k: nat)
    requires s != [] && k == Span(s[1..], IsNotClose)
    requires s[0] == '(' && 0 < k < |s| - 1
    requires NoDigitLetter(s[..k + 2])
    requires ParenDigitLetter(s[k + 2..]) == s[k + 2..]
    ensures ParenDigitLetter(s) == s
  {
    GroupUnfolds(s, k);
    assert DigitLetter(s[..k + 2], "*") == s[..k + 2];
    SplitAt(s, k + 2);
  }

  /** A group that reaches a `)` is rewritten as one piece. */
  lemma GroupUnfolds(s: string, k: nat)
    requires s != [] && k == Span(s[1..], IsNotClose)
    requires s[0] == '(' && 0 < k < |s| - 1
    ensures ParenDigitLetter(s) == DigitLetter(s[..k + 2], "*") + ParenDigitLetter(s[k + 2..])
  {
  }

  /** The retry of lines 127-131 rewrites only by inserting `*` between
      letters: after the preprocessing its parenthesis step has nothing to do. */
  lemma RetryOnlySplitsLetters(p: string)
    ensures ParenDigitLetter(LetterLetter(Normalize(p))) == LetterLetter(Normalize(p))
    ensures Remove(LetterLetter(Normalize(p)), IsStar) == Remove(Normalize(p), IsStar)
  {
    LetterLetterInsertsOnlyStars(Normalize(p));
    LetterLetterKeepsDigitGuard(Normalize(p));
    ParenDigitLetterIdle(LetterLetter(Normalize(p)));
  }

  /** Whether the first attempt of lines 68-82 answers: the text has a
      `letter^2` and its `x*x` rewrite compiles and evaluates. */
  predicate SquaresCompile(m: MathJs, p: string) {
    HasSquare(p) && Probed(m, SquaresToProducts(p))
  }

  /** The letter-splitting text that the retry of lines 127-131 hands to
      `math.parse`. */
  function RetryText(q: string): string {
    ParenDigitLetter(LetterLetter(q))
  }

  /** The compile attempts of lines 68-163, which never throw: the `x*x`
      rewrite, the preprocessed text, and after a failure other than the
      "char 3" one, the letter-splitting retry printed back by mathjs. */
  function CompileChain(m: MathJs, p: string): (r: FuncObj)
    ensures r.fn.SumOfSquares? || (r.fn == Compiled(r.expression) && Probed(m, r.expression))
    ensures r.fn.SumOfSquares? ==> r.expression == SumOfSquaresText || r.expression == Normalize(p)
    ensures r.fn.SumOfSquares? ==> !SquaresCompile(m, p) && !Probed(m, Normalize(p))
    ensures SquaresCompile(m, p) ==>
              r == FuncObj(Compiled(SquaresToProducts(p)), SquaresToProducts(p))
    ensures !SquaresCompile(m, p) && Probed(m, Normalize(p)) ==>
              r == FuncObj(Compiled(Normalize(p)), Normalize(p))
    ensures !SquaresCompile(m, p) && !Probed(m, Normalize(p))
            && Contains(CompileAndProbe(m, Normalize(p)).msg, CharThreeMessage) ==>
              r == FuncObj(SumOfSquares, Normalize(p))
    ensures !SquaresCompile(m, p) && !Probed(m, Normalize(p))
            && !Contains(CompileAndProbe(m, Normalize(p)).msg, CharThreeMessage) ==>
              var tree := m.parse(RetryText(Normalize(p)));
              if tree.Ok? && Probed(m, m.show(tree.value))
              then r == FuncObj(Compiled(m.show(tree.value)), m.show(tree.value))
              else r == FuncObj(SumOfSquares, SumOfSquaresText)
  {
    var products := SquaresToProducts(p);
    if HasSquare(p) && CompileAndProbe(m, products).Ok? then FuncObj(Compiled(products), products)
    else
      var q := Normalize(p);
      match CompileAndProbe(m, q)
      case Ok(fn) => FuncObj(fn, q)
      case Err(e) =>
        if Contains(e, CharThreeMessage) then FuncObj(SumOfSquares, q)
        else
          match m.parse(RetryText(q))
          case Err(_) => FuncObj(SumOfSquares, SumOfSquaresText)
          case Ok(node) =>
            var printed := m.show(node);
            match CompileAndProbe(m, printed)
            case Ok(fn) => FuncObj(fn, printed)
            case Err(_) => FuncObj(SumOfSquares, SumOfSquaresText)
  }

  /** The validated, trimmed text: non-empty and within the accepted alphabet. */
  predicate Valid(t: string) {
    t != [] && forall k :: 0 <= k < |t| ==> IsAllowed(t[k])
  }

  lemma SumOfSquaresTextIsValid()
    ensures InvalidChars(SumOfSquaresText) == []
  {
    assert forall k :: 0 <= k < |SumOfSquaresText| ==> IsAllowed(SumOfSquaresText[k]);
  }

  /** `parseFunction(expression)`: the empty text is refused, and the rest
      is judged after trimming. */
  function ParseFunction(m: MathJs, expression: string): (r: Outcome<FuncObj>)
    ensures expression == [] ==> r == Err(ErrorPrefix + MissingMessage)
    ensures expression != [] && Trim(expression) == [] ==> r == Err(ErrorPrefix + BlankMessage)
    ensures Trim(expression) != [] && InvalidChars(Trim(expression)) != [] ==>
              r == Err(ErrorPrefix + (InvalidMessage + JoinChars(InvalidChars(Trim(expression)))))
    ensures Trim(expression) == [] ==> r.Err?
    ensures forall c :: c in Trim(expression) && !IsAllowed(c) ==> r.Err? && c in r.msg
    ensures r.Err? ==> StartsWith(r.msg, ErrorPrefix)
    ensures r.Ok? ==> Valid(Trim(expression))
    ensures r.Ok? ==> r.value.fn.SumOfSquares?
                      || (r.value.fn == Compiled(r.value.expression) && Probed(m, r.value.expression))
    ensures Trim(expression) == SumOfSquaresText ==> r == Ok(FuncObj(SumOfSquares, SumOfSquaresText))
    ensures Valid(Trim(expression)) && Trim(expression) != SumOfSquaresText
            && !StartsWith(CommaRepair(Trim(expression)), FunctionNotation) ==>
              r == Ok(CompileChain(m, CommaRepair(Trim(expression))))
    decreases |expression|, 2
  {
    if expression == [] then Err(ErrorPrefix + MissingMessage)
    else ParseTrimmed(m, Trim(expression))
  }

  /** Lines 20-50 on the trimmed text: the empty text and any character
      outside the alphabet are refused, naming the offenders; `x^2 + y^2`
      has a fixed answer. */
  function ParseTrimmed(m: MathJs, t: string): (r: Outcome<FuncObj>)
    ensures t == [] ==> r == Err(ErrorPrefix + BlankMessage)
    ensures t != [] && InvalidChars(t) != [] ==>
              r == Err(ErrorPrefix + (InvalidMessage + JoinChars(InvalidChars(t))))
    ensures forall c :: c in t && !IsAllowed(c) ==> r.Err? && c in r.msg
    ensures r.Err? ==> StartsWith(r.msg, ErrorPrefix)
    ensures r.Ok? ==> Valid(t)
    ensures r.Ok? ==> r.value.fn.SumOfSquares?
                      || (r.value.fn == Compiled(r.value.expression) && Probed(m, r.value.expression))
    ensures t == SumOfSquaresText ==> r == Ok(FuncObj(SumOfSquares, SumOfSquaresText))
    ensures Valid(t) && t != SumOfSquaresText && !StartsWith(CommaRepair(t), FunctionNotation) ==>
              r == Ok(CompileChain(m, CommaRepair(t)))
    decreases |t|, 1
  {
    SumOfSquaresTextIsValid();
    if t == [] then Err(ErrorPrefix + BlankMessage)
    else
      var bad := InvalidChars(t);
      if bad != [] then
        Err(ErrorPrefix + (InvalidMessage + JoinChars(bad)))
      else if t == SumOfSquaresText then Ok(FuncObj(SumOfSquares, SumOfSquaresText))
      else Repaired(m, t)
  }

  /** Lines 53-58: a comma at index 2 means the text uses decimal commas,
      and every comma becomes a dot. Index 2 is then a dot. */
  function CommaRepair(t: string): (p: string)
    ensures |p| == |t|
    ensures |t| >= 3 && t[2] == ',' ==> p[2] == '.'
    ensures |t| >= 3 && t[2] == ',' ==>
              forall k :: 0 <= k < |t| ==> p[k] == (if t[k] == ',' then '.' else t[k])
    ensures !(|t| >= 3 && t[2] == ',') ==> p == t
  {
    if |t| >= 3 && t[2] == ',' then CommasToDots(t) else t
  }

  /** Lines 53-163 on a validated text: the comma repair, the `f(x,y)`
      notation parsed again after it, and the compile chain. */
  function Repaired(m: MathJs, t: string): (r: Outcome<FuncObj>)
    ensures r.Err? ==> StartsWith(r.msg, ErrorPrefix)
    ensures r.Ok? ==> r.value.fn.SumOfSquares?
                      || (r.value.fn == Compiled(r.value.expression) && Probed(m, r.value.expression))
    ensures !StartsWith(CommaRepair(t), FunctionNotation) ==> r == Ok(CompileChain(m, CommaRepair(t)))
    ensures StartsWith(CommaRepair(t), FunctionNotation) ==>
              var inner := ParseFunction(m, Trim(CommaRepair(t)[|FunctionNotation|..]));
              && (inner.Ok? ==> r == inner)
              && (inner.Err? ==> r == Err(ErrorPrefix + inner.msg))
    decreases |t|, 0
  {
    var p := CommaRepair(t);
    if StartsWith(p, FunctionNotation) then
      match ParseFunction(m, Trim(p[|FunctionNotation|..]))
      case Ok(v) => Ok(v)
      case Err(e) => Err(ErrorPrefix + e)
    else Ok(CompileChain(m, p))
  }

  /** Whether `parseFunction` throws, and with which message, is decided by the
      validation steps alone: every mathjs failure is absorbed by a fallback. */
  lemma {:induction false} RejectionIgnoresMathJs(m1: MathJs, m2: MathJs, s: string)
    ensures ParseFunction(m1, s).Err? <==> ParseFunction(m2, s).Err?
    ensures ParseFunction(m1, s).Err? ==> ParseFunction(m1, s) == ParseFunction(m2, s)
    decreases |s|, 2
  {
    if s != [] {
      TrimmedIgnoresMathJs(m1, m2, Trim(s));
    }
  }

  /** The step of the proof above on the trimmed text. */
  lemma {:induction false} TrimmedIgnoresMathJs(m1: MathJs, m2: MathJs, t: string)
    ensures ParseTrimmed(m1, t).Err? <==> ParseTrimmed(m2, t).Err?
    ensures ParseTrimmed(m1, t).Err? ==> ParseTrimmed(m1, t) == ParseTrimmed(m2, t)
    decreases |t|, 1
  {
    if t != [] && InvalidChars(t) == [] && t != SumOfSquaresText {
      RepairIgnoresMathJs(m1, m2, t);
    }
  }

  /** The step of the proof above past validation. */
  lemma {:induction false} RepairIgnoresMathJs(m1: MathJs, m2: MathJs, t: string)
    ensures Repaired(m1, t).Err? <==> Repaired(m2, t).Err?
    ensures Repaired(m1, t).Err? ==> Repaired(m1, t) == Repaired(m2, t)
    decreases |t|, 0
  {
    var p := CommaRepair(t);
    if StartsWith(p, FunctionNotation) {
      RejectionIgnoresMathJs(m1, m2, Trim(p[|FunctionNotation|..]));
    }
  }

  /** Past the validation steps, only the `f(x,y)` branch can still fail: the
      comma repair turns index 2 into `.`, so it never produces the notation. */
  lemma AcceptedAfterValidation(m: MathJs, s: string)
    requires s != [] && Trim(s) != [] && InvalidChars(Trim(s)) == [] && !StartsWith(Trim(s), FunctionNotation)
    ensures ParseFunction(m, s).Ok?
  {
    RepairNeverFails(m, Trim(s));
  }

  /** The comma repair turns index 2 into `.`, so a text without the notation
      does not gain it, and the compile chain always answers. */
  lemma RepairNeverFails(m: MathJs, t: string)
    requires !StartsWith(t, FunctionNotation)
    ensures Repaired(m, t).Ok?
  {
    var p := CommaRepair(t);
    if |t| >= 3 && t[2] == ',' {
      assert p[2] != FunctionNotation[2];
    }
  }

  /** A valid text that does not start with the `f(x,y)` notation is always
      accepted, whatever mathjs makes of it. */
  lemma ValidTextIsAccepted(m: MathJs, s: string)
    requires Valid(Trim(s)) && !StartsWith(Trim(s), FunctionNotation)
    ensures ParseFunction(m, s).Ok?
  {
    var t := Trim(s);
    assert s != [] && InvalidChars(t) == [] by {
      assert Valid(t);
    }
    AcceptedAfterValidation(m, s);
  }
}

=== FILE: rewrite.dfy ===
/** Global regular-expression replacements used by both the expression front end
    and the LaTeX converter, each written as a left-to-right scan that tries the
    pattern at every position and resumes after a replaced match, which is how
    `String.prototype.replace` with a `/g` pattern proceeds. */
module Rewrite {
  import opened Chars

  /** `s` with every character satisfying `drop` deleted, the others kept in order. */
  function Remove(s: string, drop: char -> bool): (r: string)
    ensures |r| <= |s|
  {
    if s == [] then []
    else (if drop(s[0]) then [] else [s[0]]) + Remove(s[1..], drop)
  }

  lemma {:induction false} RemoveConcat(a: string, b: string, drop: char -> bool)
    ensures Remove(a + b, drop) == Remove(a, drop) + Remove(b, drop)
  {
    if a == [] {
      assert a + b == b;
    } else {
      assert (a + b)[1..] == a[1..] + b;
      RemoveConcat(a[1..], b, drop);
    }
  }

  lemma RemoveOne(c: char, drop: char -> bool)
    ensures Remove([c], drop) == if drop(c) then [] else [c]
  {
    assert [c][1..] == [];
  }

  /** Deleting a dropped character from the middle of three. */
  lemma RemoveMiddle(a: char, x: char, b: char, drop: char -> bool)
    requires drop(x) && !drop(a) && !drop(b)
    ensures Remove([a, x, b], drop) == [a, b]
    ensures Remove([a, b], drop) == [a, b]
  {
    assert [a, x, b] == [a] + [x] + [b];
    assert [a, b] == [a] + [b];
    RemoveConcat([a] + [x], [b], drop);
    RemoveConcat([a], [x], drop);
    RemoveConcat([a], [b], drop);
    RemoveOne(a, drop);
    RemoveOne(x, drop);
    RemoveOne(b, drop);
  }

  /** One step of a rewrite that puts a dropped character between two kept
      ones: if the rest agrees after deletion, so does the whole. */
  lemma InsertedStep(a: char, x: char, b: char, out: string, rest: string, drop: char -> bool)
    requires drop(x) && !drop(a) && !drop(b)
    requires Remove(out, drop) == Remove(rest, drop)
    ensures Remove([a, x, b] + out, drop) == Remove([a, b] + rest, drop)
    ensures Remove([a] + [x] + [b] + out, drop) == Remove([a, b] + rest, drop)
  {
    RemoveConcat([a, x, b], out, drop);
    RemoveConcat([a, b], rest, drop);
    RemoveMiddle(a, x, b, drop);
    assert [a] + [x] + [b] == [a, x, b];
  }

  /** One step of a rewrite that keeps a character: if the rest agrees after
      deletion, so does the whole. */
  lemma KeptStep(a: char, out: string, rest: string, drop: char -> bool)
    requires Remove(out, drop) == Remove(rest, drop)
    ensures Remove([a] + out, drop) == Remove([a] + rest, drop)
  {
    RemoveConcat([a], out, drop);
    RemoveConcat([a], rest, drop);
  }

  /** Deleting the dropped characters around a kept one. */
  lemma RemoveAround(x: char, a: char, drop: char -> bool)
    requires drop(x) && !drop(a)
    ensures Remove([x, a, x], drop) == [a]
    ensures Remove([a], drop) == [a]
  {
    assert [x, a, x] == [x] + [a] + [x];
    RemoveConcat([x] + [a], [x], drop);
    RemoveConcat([x], [a], drop);
    RemoveOne(a, drop);
    RemoveOne(x, drop);
  }

  /** `s.replace(/\s+/g, ' ')`: every maximal run of whitespace becomes one space. */
  function CollapseSpaces(s: string): (r: string)
    ensures forall c :: c in r ==> c in s || c == ' '
    ensures s == [] ==> r == []
    ensures s != [] && IsSpace(s[0]) ==> r != [] && r[0] == ' '
    ensures s != [] && !IsSpace(s[0]) ==> r != [] && r[0] == s[0]
    decreases |s|
  {
    if s == [] then []
    else if IsSpace(s[0]) then " " + CollapseSpaces(TrimStart(s[1..]))
    else [s[0]] + CollapseSpaces(s[1..])
  }

  /** The collapsed text never holds two whitespace characters in a row, and
      its only whitespace character is the plain space. */
  lemma {:induction false} CollapseSpacesSeparates(s: string)
    ensures NoSpaceRun(CollapseSpaces(s))
    ensures forall k :: 0 <= k < |CollapseSpaces(s)| && IsSpace(CollapseSpaces(s)[k]) ==> CollapseSpaces(s)[k] == ' '
    decreases |s|
  {
    if s != [] {
      if IsSpace(s[0]) {
        var tail := CollapseSpaces(TrimStart(s[1..]));
        CollapseSpacesSeparates(TrimStart(s[1..]));
        NoSpaceRunConcat(" ", tail);
      } else {
        var tail := CollapseSpaces(s[1..]);
        CollapseSpacesSeparates(s[1..]);
        NoSpaceRunConcat([s[0]], tail);
      }
    }
  }

  /** Collapsing only touches whitespace: deleting all whitespace gives the
      same text before and after. */
  lemma {:induction false} CollapseSpacesKeepsContent(s: string)
    ensures Remove(CollapseSpaces(s), IsSpace) == Remove(s, IsSpace)
    decreases |s|
  {
    if s != [] {
      if IsSpace(s[0]) {
        var rest := TrimStart(s[1..]);
        CollapseSpacesKeepsContent(rest);
        RunCollapsesToNothing(s, rest);
      } else {
        CollapseSpacesKeepsContent(s[1..]);
        HeadIsKept(s);
      }
    }
  }

  /** The step of the proof above for a text that starts with whitespace. */
  lemma RunCollapsesToNothing(s: string, rest: string)
    requires s != [] && IsSpace(s[0]) && rest == TrimStart(s[1..])
    requires Remove(CollapseSpaces(rest), IsSpace) == Remove(rest, IsSpace)
    ensures Remove(CollapseSpaces(s), IsSpace) == Remove(s, IsSpace)
  {
    assert CollapseSpaces(s) == " " + CollapseSpaces(rest);
    RemoveConcat(" ", CollapseSpaces(rest), IsSpace);
    RemoveOne(' ', IsSpace);
    LeadingRunRemoved(s[1..]);
  }

  /** Leading whitespace leaves nothing behind. */
  lemma {:induction false} LeadingRunRemoved(s: string)
    ensures Remove(TrimStart(s), IsSpace) == Remove(s, IsSpace)
    decreases |s|
  {
    if s != [] && IsSpace(s[0]) {
      LeadingRunRemoved(s[1..]);
    }
  }

  /** The step of the proof above for a text that starts with another
      character. */
  lemma HeadIsKept(s: string)
    requires s != [] && !IsSpace(s[0])
    requires Remove(CollapseSpaces(s[1..]), IsSpace) == Remove(s[1..], IsSpace)
    ensures Remove(CollapseSpaces(s), IsSpace) == Remove(s, IsSpace)
  {
    assert CollapseSpaces(s) == [s[0]] + CollapseSpaces(s[1..]);
    RemoveConcat([s[0]], CollapseSpaces(s[1..]), IsSpace);
    SplitHead(s);
    RemoveConcat([s[0]], s[1..], IsSpace);
  }

  /** `s.replace(/([0-9])([a-zA-Z])/g, '$1' + sep + '$2')`. */
  function DigitLetter(s: string, sep: string): (r: string)
    ensures forall c :: c in r ==> c in s || c in sep
    ensures s != [] ==> r != [] && r[0] == s[0]
    ensures NoDigitLetter(s) ==> r == s
    decreases |s|
  {
    if |s| >= 2 && IsDigit(s[0]) && IsLetter(s[1]) then
      [s[0]] + sep + [s[1]] + DigitLetter(s[2..], sep)
    else if s == [] then []
    else
      DigitGuardOnSlice(s, 1, |s|);
      [s[0]] + DigitLetter(s[1..], sep)
  }

  /** A separator that starts with a non-letter and holds no digit leaves no
      digit directly before a letter. */
  lemma {:induction false} DigitLetterSeparates(s: string, sep: string)
    requires sep != [] && !IsLetter(sep[0])
    requires forall k :: 0 <= k < |sep| ==> !IsDigit(sep[k])
    ensures NoDigitLetter(DigitLetter(s, sep))
    decreases |s|
  {
    if |s| >= 2 && IsDigit(s[0]) && IsLetter(s[1]) {
      var tail := DigitLetter(s[2..], sep);
      DigitLetterSeparates(s[2..], sep);
      assert NoDigitLetter(sep);
      NoDigitLetterConcat([s[0]], sep);
      NoDigitLetterConcat([s[0]] + sep, [s[1]]);
      NoDigitLetterConcat([s[0]] + sep + [s[1]], tail);
    } else if s != [] {
      DigitLetterSeparates(s[1..], sep);
      NoDigitLetterConcat([s[0]], DigitLetter(s[1..], sep));
    }
  }

  /** A separator without whitespace never creates a run of whitespace. */
  lemma {:induction false} DigitLetterKeepsSpaceRuns(s: string, sep: string)
    requires NoSpaceRun(s)
    requires forall k :: 0 <= k < |sep| ==> !IsSpace(sep[k])
    ensures NoSpaceRun(DigitLetter(s, sep))
    decreases |s|
  {
    if s != [] {
      SpaceGuardOnSlice(s, 1, |s|);
    }
    if |s| >= 2 && IsDigit(s[0]) && IsLetter(s[1]) {
      SpaceGuardOnSlice(s, 2, |s|);
      var tail := DigitLetter(s[2..], sep);
      DigitLetterKeepsSpaceRuns(s[2..], sep);
      assert NoSpaceRun(sep);
      NoSpaceRunConcat([s[0]], sep);
      NoSpaceRunConcat([s[0]] + sep, [s[1]]);
      NoSpaceRunConcat([s[0]] + sep + [s[1]], tail);
    } else if s != [] {
      DigitLetterKeepsSpaceRuns(s[1..], sep);
      NoSpaceRunConcat([s[0]], DigitLetter(s[1..], sep));
    }
  }

  /** A separator without `^` keeps every `^` away from a digit. */
  lemma {:induction false} DigitLetterKeepsCaretGuard(s: string, sep: string)
    requires NoCaretDigit(s)
    requires '^' !in sep
    ensures NoCaretDigit(DigitLetter(s, sep))
    decreases |s|
  {
    if s != [] {
      CaretGuardOnSlice(s, 1, |s|);
    }
    if |s| >= 2 && IsDigit(s[0]) && IsLetter(s[1]) {
      CaretGuardOnSlice(s, 2, |s|);
      var tail := DigitLetter(s[2..], sep);
      DigitLetterKeepsCaretGuard(s[2..], sep);
      assert NoCaretDigit(sep);
      NoCaretDigitConcat([s[0]], sep);
      NoCaretDigitConcat([s[0]] + sep, [s[1]]);
      NoCaretDigitConcat([s[0]] + sep + [s[1]], tail);
    } else if s != [] {
      DigitLetterKeepsCaretGuard(s[1..], sep);
      NoCaretDigitConcat([s[0]], DigitLetter(s[1..], sep));
    }
  }

  /** With the separator `*`, the step only inserts `*` characters: deleting
      every `*` gives the same text before and after. */
  lemma {:induction false} DigitLetterInsertsOnlyStars(s: string)
    ensures Remove(DigitLetter(s, "*"), IsStar) == Remove(s, IsStar)
    decreases |s|
  {
    if |s| >= 2 && IsDigit(s[0]) && IsLetter(s[1]) {
      DigitLetterInsertsOnlyStars(s[2..]);
      SplitTwo(s);
      InsertedStep(s[0], '*', s[1], DigitLetter(s[2..], "*"), s[2..], IsStar);
    } else if s != [] {
      DigitLetterInsertsOnlyStars(s[1..]);
      SplitHead(s);
      KeptStep(s[0], DigitLetter(s[1..], "*"), s[1..], IsStar);
    }
  }

  /** `s.replace(/pat/g, rep)` for a literal, non-empty pattern. */
  function ReplaceAll(s: string, pat: string, rep: string): (r: string)
    requires pat != []
    ensures forall c :: c in r ==> c in s || c in rep
    ensures s != [] && !StartsWith(s, pat) ==> r != [] && r[0] == s[0]
    ensures StartsWith(s, pat) && rep != [] ==> r != [] && r[0] == rep[0]
    decreases |s|
  {
    if s == [] then []
    else if StartsWith(s, pat) then rep + ReplaceAll(s[|pat|..], pat, rep)
    else [s[0]] + ReplaceAll(s[1..], pat, rep)
  }

  /** `pat` occurs nowhere in `s`. */
  predicate Absent(s: string, pat: string) {
    forall k :: 0 <= k < |s| ==> !StartsWith(s[k..], pat)
  }

  /** A text without an occurrence of the pattern is left unchanged. */
  lemma {:induction false} ReplaceAllIdle(s: string, pat: string, rep: string)
    requires pat != [] && Absent(s, pat)
    ensures ReplaceAll(s, pat, rep) == s
    decreases |s|
  {
    if s != [] {
      assert !StartsWith(s[0..], pat);
      assert s[0..] == s;
      assert Absent(s[1..], pat) by {
        forall k | 0 <= k < |s[1..]| ensures !StartsWith(s[1..][k..], pat) {
          assert s[1..][k..] == s[k + 1..];
        }
      }
      ReplaceAllIdle(s[1..], pat, rep);
      SplitHead(s);
    }
  }

  /** No `a` stands directly before a `b`. */
  predicate NoPair(s: string, a: char, b: char) {
    forall k :: 0 <= k < |s| - 1 ==> !(s[k] == a && s[k + 1] == b)
  }

  lemma NoPairConcat(x: string, y: string, a: char, b: char)
    requires NoPair(x, a, b) && NoPair(y, a, b)
    requires x == [] || y == [] || !(x[|x| - 1] == a && y[0] == b)
    ensures NoPair(x + y, a, b)
  {
    var s := x + y;
    forall k | 0 <= k < |s| - 1 ensures !(s[k] == a && s[k + 1] == b) {
      if k + 1 < |x| {
        assert s[k] == x[k] && s[k + 1] == x[k + 1];
      } else if k >= |x| {
        assert s[k] == y[k - |x|] && s[k + 1] == y[k + 1 - |x|];
      }
    }
  }

  /** Replacing the two-character pattern `ab` by a text that holds no `ab`,
      does not start with `b` and does not end with `a` leaves no `ab` at
      all: no occurrence survives and none forms at a seam. */
  lemma {:induction false} ReplaceAllClearsPair(s: string, a: char, b: char, rep: string)
    requires rep != [] && NoPair(rep, a, b)
    requires rep[0] != b && rep[|rep| - 1] != a
    ensures NoPair(ReplaceAll(s, [a, b], rep), a, b)
    decreases |s|
  {
    if s != [] {
      var pat := [a, b];
      if StartsWith(s, pat) {
        var rest := ReplaceAll(s[2..], pat, rep);
        ReplaceAllClearsPair(s[2..], a, b, rep);
        NoPairConcat(rep, rest, a, b);
      } else {
        var rest := ReplaceAll(s[1..], pat, rep);
        ReplaceAllClearsPair(s[1..], a, b, rep);
        if |s| >= 2 && s[0] == a {
          assert s[..2] == [s[0], s[1]];
          assert s[1] != b;
          assert s[1..] != [] && s[1..][0] == s[1];
        }
        NoPairConcat([s[0]], rest, a, b);
      }
    }
  }

  /** A replacement that holds no `^` and does not start with a digit keeps
      every `^` away from a digit. */
  lemma {:induction false} ReplaceAllKeepsCaretGuard(s: string, pat: string, rep: string)
    requires pat != [] && rep != []
    requires NoCaretDigit(s)
    requires '^' !in rep && !IsDigit(rep[0])
    ensures NoCaretDigit(ReplaceAll(s, pat, rep))
    decreases |s|
  {
    if s != [] {
      if StartsWith(s, pat) {
        CaretGuardOnSlice(s, |pat|, |s|);
        ReplaceAllKeepsCaretGuard(s[|pat|..], pat, rep);
        assert NoCaretDigit(rep);
        NoCaretDigitConcat(rep, ReplaceAll(s[|pat|..], pat, rep));
      } else {
        CaretGuardOnSlice(s, 1, |s|);
        ReplaceAllKeepsCaretGuard(s[1..], pat, rep);
        NoCaretDigitConcat([s[0]], ReplaceAll(s[1..], pat, rep));
      }
    }
  }

  /** Collapsing whitespace keeps every `^` away from a digit: the only new
      character is a space. */
  lemma {:induction false} CollapseSpacesKeepsCaretGuard(s: string)
    requires NoCaretDigit(s)
    ensures NoCaretDigit(CollapseSpaces(s))
    decreases |s|
  {
    if s != [] {
      if IsSpace(s[0]) {
        var rest := TrimStart(s[1..]);
        CaretGuardOnSlice(s, |s| - |rest|, |s|);
        CollapseSpacesKeepsCaretGuard(rest);
        NoCaretDigitConcat(" ", CollapseSpaces(rest));
      } else {
        CaretGuardOnSlice(s, 1, |s|);
        CollapseSpacesKeepsCaretGuard(s[1..]);
        NoCaretDigitConcat([s[0]], CollapseSpaces(s[1..]));
      }
    }
  }

  /** Replacing a single character by a text without it removes it entirely. */
  lemma {:induction false} ReplaceAllRemovesChar(s: string, c: char, rep: string)
    requires c !in rep
    ensures c !in ReplaceAll(s, [c], rep)
    decreases |s|
  {
    if s != [] {
      if StartsWith(s, [c]) {
        ReplaceAllRemovesChar(s[1..], c, rep);
      } else {
        assert s[0] != c by {
          assert s[..1] == [s[0]];
        }
        ReplaceAllRemovesChar(s[1..], c, rep);
      }
    }
  }

  /** A single character is replaced where it stands. */
  lemma ReplaceCharOne(x: char, c: char, rep: string)
    ensures ReplaceAll([x], [c], rep) == if x == c then rep else [x]
  {
    assert [x][..1] == [x];
    assert [x][1..] == [];
  }

  /** Replacing a single character works piece by piece: the text between
      matches is kept, in order. */
  lemma {:induction false} ReplaceCharConcat(a: string, b: string, c: char, rep: string)
    ensures ReplaceAll(a + b, [c], rep) == ReplaceAll(a, [c], rep) + ReplaceAll(b, [c], rep)
    decreases |a|
  {
    if a != [] {
      assert (a + b)[1..] == a[1..] + b;
      assert (a + b)[..1] == a[..1];
      ReplaceCharConcat(a[1..], b, c, rep);
    } else {
      assert a + b == b;
    }
  }
}

=== FILE: sampler.dfy ===
/** `generate3DPlotData` and `generate2DContourData`
    (src/lib/math/criticalPoints.ts, lines 435-486): the function sampled on a
    square lattice of the window, one value per node, with failed evaluations
    kept in place as `NaN`. */
module Sampler {
  import opened Oracle
  import opened Parse
  import opened Search

  /** One sampled height: a number, or `NaN` where the evaluation threw. */
  datatype Sample = Num(value: real) | NaN

  /** The returned `{ x, y, z }`: `z[i][j]` is the height above `(x[i], y[j])`. */
  datatype PlotData = PlotData(x: seq<real>, y: seq<real>, z: seq<seq<Sample>>)

  /** The height recorded at (x, y). */
  function SampleAt(m: MathJs, fn: EvalFn, x: real, y: real): (s: Sample)
    ensures s.Num? <==> Evaluate(m, fn, x, y).Ok?
    ensures s.Num? ==> Evaluate(m, fn, x, y) == Ok(s.value)
  {
    match Evaluate(m, fn, x, y)
    case Ok(v) => Num(v)
    case Err(_) => NaN
  }

  /** Nodes per axis: `for (let i = 0; i <= gridSize; i++)` runs
      `gridSize + 1` times, and not at all for a negative size. */
  function Nodes(size: int): nat {
    if size >= 0 then size + 1 else 0
  }

  /** `data` samples `fn` on the lattice of `g`: both axes hold the lattice
      coordinates in increasing index order, and every row of `z` holds the
      heights above one x coordinate. */
  predicate IsSampling(m: MathJs, fn: EvalFn, g: Grid, data: PlotData)
    requires g.size != 0
  {
    var n := Nodes(g.size);
    && |data.x| == n && |data.y| == n && |data.z| == n
    && (forall i :: 0 <= i < n ==> data.x[i] == Coord(g.xMin, g.xMax, g.size, i))
    && (forall j :: 0 <= j < n ==> data.y[j] == Coord(g.yMin, g.yMax, g.size, j))
    && (forall i :: 0 <= i < n ==> |data.z[i]| == n)
    && (forall i, j :: 0 <= i < n && 0 <= j < n ==>
          data.z[i][j] == SampleAt(m, fn, data.x[i], data.y[j]))
  }

  /** The sampling is determined by the function and the window. */
  lemma SamplingIsUnique(m: MathJs, fn: EvalFn, g: Grid, a: PlotData, b: PlotData)
    requires g.size != 0
    requires IsSampling(m, fn, g, a) && IsSampling(m, fn, g, b)
    ensures a == b
  {
    var n := Nodes(g.size);
    assert a.x == b.x;
    assert a.y == b.y;
    forall i | 0 <= i < n ensures a.z[i] == b.z[i] {
      forall j | 0 <= j < n ensures a.z[i][j] == b.z[i][j] {
        assert a.x[i] == b.x[i] && a.y[j] == b.y[j];
      }
    }
    assert a.z == b.z;
  }

  /** The axes start at the low end of the window and end exactly at the
      high end. */
  lemma SamplingSpansWindow(m: MathJs, fn: EvalFn, g: Grid, data: PlotData)
    requires g.size > 0
    requires IsSampling(m, fn, g, data)
    ensures data.x[0] == g.xMin && data.x[|data.x| - 1] == g.xMax
    ensures data.y[0] == g.yMin && data.y[|data.y| - 1] == g.yMax
  {
    LatticeEnds(g.xMin, g.xMax, g.size);
    LatticeEnds(g.yMin, g.yMax, g.size);
  }

  /** `s` holds the lattice coordinates from `lo` to `hi`, one per node. */
  predicate IsAxis(s: seq<real>, lo: real, hi: real, size: int)
    requires size != 0
  {
    |s| == Nodes(size) && forall k :: 0 <= k < |s| ==> s[k] == Coord(lo, hi, size, k)
  }

  /** The inner loop of lines 457-470 for one x coordinate: the heights of
      the column above `x`, and in the first round also the y axis. */
  method SampleColumn(m: MathJs, fn: EvalFn, g: Grid, x: real, first: bool, ys: seq<real>)
    returns (row: seq<Sample>, ys': seq<real>)
    requires g.size >= 0 && g.size != 0
    requires first ==> ys == []
    ensures |row| == Nodes(g.size)
    ensures forall l :: 0 <= l < |row| ==> row[l] == SampleAt(m, fn, x, Coord(g.yMin, g.yMax, g.size, l))
    ensures first ==> IsAxis(ys', g.yMin, g.yMax, g.size)
    ensures !first ==> ys' == ys
  {
    var yStep := (g.yMax - g.yMin) / g.size as real;
    row := [];
    ys' := ys;
    var j := 0;
    while j <= g.size
      invariant 0 <= j <= g.size + 1
      invariant |row| == j
      invariant first ==> |ys'| == j && forall l :: 0 <= l < j ==> ys'[l] == Coord(g.yMin, g.yMax, g.size, l)
      invariant !first ==> ys' == ys
      invariant forall l :: 0 <= l < j ==> row[l] == SampleAt(m, fn, x, Coord(g.yMin, g.yMax, g.size, l))
      decreases g.size - j
    {
      var currentY := g.yMin + j as real * yStep;
      assert currentY == Coord(g.yMin, g.yMax, g.size, j);
      if first {
        ys' := ys' + [currentY];
      }
      row := row + [SampleAt(m, fn, x, currentY)];
      j := j + 1;
    }
  }

  /** `generate3DPlotData(expression, xRange, yRange, gridSize)`: the error of
      `parseFunction` propagates unchanged; otherwise the lattice is sampled. */
  method Generate3DPlotData(m: MathJs, expression: string, g: Grid) returns (r: Outcome<PlotData>)
    requires g.size != 0
    ensures r.Err? <==> ParseFunction(m, expression).Err?
    ensures r.Err? ==> r.msg == ParseFunction(m, expression).msg
    ensures r.Ok? ==> IsSampling(m, ParseFunction(m, expression).value.fn, g, r.value)
  {
    var parsed := ParseFunction(m, expression);
    if parsed.Err? {
      return Err(parsed.msg);
    }
    var data := SampleLattice(m, parsed.value.fn, g);
    r := Ok(data);
  }

  /** The outer loop of lines 452-471: one column of heights per x coordinate. */
  method SampleLattice(m: MathJs, fn: EvalFn, g: Grid) returns (data: PlotData)
    requires g.size != 0
    ensures IsSampling(m, fn, g, data)
  {
    var n := Nodes(g.size);
    var xStep := (g.xMax - g.xMin) / g.size as real;
    var xs: seq<real> := [];
    var ys: seq<real> := [];
    var zs: seq<seq<Sample>> := [];
    var i := 0;
    while i <= g.size
      invariant 0 <= i <= n
      invariant |xs| == i && |zs| == i
      invariant i == 0 ==> ys == []
      invariant i > 0 ==> IsAxis(ys, g.yMin, g.yMax, g.size)
      invariant forall k :: 0 <= k < i ==> xs[k] == Coord(g.xMin, g.xMax, g.size, k)
      invariant forall k :: 0 <= k < i ==> |zs[k]| == n
      invariant forall k, l :: 0 <= k < i && 0 <= l < n ==>
                  zs[k][l] == SampleAt(m, fn, xs[k], Coord(g.yMin, g.yMax, g.size, l))
      decreases g.size - i
    {
      var currentX := g.xMin + i as real * xStep;
      assert currentX == Coord(g.xMin, g.xMax, g.size, i);
      xs := xs + [currentX];
      var row;
      row, ys := SampleColumn(m, fn, g, currentX, i == 0, ys);
      zs := zs + [row];
      i := i + 1;
    }
    data := PlotData(xs, ys, zs);
  }

  /** `generate2DContourData`: the same data as the 3D plot. */
  method Generate2DContourData(m: MathJs, expression: string, g: Grid) returns (r: Outcome<PlotData>)
    requires g.size != 0
    ensures r.Err? <==> ParseFunction(m, expression).Err?
    ensures r.Err? ==> r.msg == ParseFunction(m, expression).msg
    ensures r.Ok? ==> IsSampling(m, ParseFunction(m, expression).value.fn, g, r.value)
  {
    r := Generate3DPlotData(m, expression, g);
  }
}

=== FILE: search.dfy ===
/** `findCriticalPoints` (src/lib/math/criticalPoints.ts, lines 257-432): the
    hard-coded answers for three textbook functions, the grid search for points
    where both partial derivatives are almost zero, the origin fallback, and the
    placeholder point returned when the text cannot be analysed. Floating-point
    numbers are exact reals here. */
module Search {
  import opened Chars
  import opened Oracle
  import opened Parse
  import opened Derivatives
  import opened Hessian
  import opened Known

  /** A point the analyzer reports, with its label. */
  datatype CriticalPoint = CriticalPoint(x: real, y: real, z: real, kind: Kind)

  /** The search window `xRange`, `yRange` and the number of steps per axis. */
  datatype Grid = Grid(xMin: real, xMax: real, yMin: real, yMax: real, size: int)

  /** The default arguments `[-10, 10]`, `[-10, 10]` and `20`. */
  const DefaultSearchGrid: Grid := Grid(-10.0, 10.0, -10.0, 10.0, 20)

  /** A gradient component counts as zero strictly below this bound. */
  const Tolerance: real := 0.01

  /** `Math.PI`, the double nearest to pi. */
  const JsPi: real := 884279719003555.0 / 281474976710656.0

  /** The single point returned when the text cannot be analysed. */
  const Placeholder: CriticalPoint := CriticalPoint(0.0, 0.0, 0.0, Undetermined)

  /** The hard-coded answer for `x^2 + y^2`. */
  const SumOfSquaresPoints: seq<CriticalPoint> := [CriticalPoint(0.0, 0.0, 0.0, LocalMinimum)]

  /** The hard-coded answer for `sin(x) + cos(y)`, with the value `1` at the
      maximum exactly as written at line 291. */
  const SinCosPoints: seq<CriticalPoint> :=
    [CriticalPoint(JsPi / 2.0, 0.0, 1.0, LocalMaximum), CriticalPoint(-JsPi / 2.0, JsPi, -2.0, LocalMinimum)]

  /** The hard-coded answer for `x^2 - y^2`. */
  const DifferenceOfSquaresPoints: seq<CriticalPoint> := [CriticalPoint(0.0, 0.0, 0.0, SaddlePoint)]

  function Abs(r: real): real { if r < 0.0 then -r else r }

  /** `q` is a whole number of thousandths. */
  predicate OnMilliGrid(q: real) {
    (q * 1000.0).Floor as real == q * 1000.0
  }

  /** `Math.round(r * 1000) / 1000`; `Math.round` takes halves upwards. */
  function Round3(r: real): (q: real)
    ensures OnMilliGrid(q)
    ensures -0.0005 <= r - q < 0.0005
  {
    ((r * 1000.0 + 0.5).Floor as real) / 1000.0
  }

  /** The two facts above pin the rounding down: it is the one multiple of
      0.001 in the half-open window around `r`. */
  lemma Round3IsNearestThousandth(r: real, q: real)
    requires OnMilliGrid(q) && -0.0005 <= r - q < 0.0005
    ensures Round3(r) == q
  {
    var k := (q * 1000.0).Floor;
    var x := r * 1000.0 + 0.5;
    assert x - k as real == 1000.0 * (r - q) + 0.5;
    assert k as real <= x < k as real + 1.0;
    assert x.Floor == k;
  }

  /** Rounding a rounded value changes nothing. */
  lemma Round3Idempotent(r: real)
    ensures Round3(Round3(r)) == Round3(r)
  {
    Round3IsNearestThousandth(Round3(r), Round3(r));
  }

  /** `(hi - lo) / gridSize`. */
  function Step(lo: real, hi: real, size: int): real
    requires size != 0
  {
    (hi - lo) / size as real
  }

  /** The loop variable after `i` rounds of `x += xStep` from `lo`. */
  function Coord(lo: real, hi: real, size: int, i: nat): real
    requires size != 0
  {
    lo + Mul(i as real, Step(lo, hi, size))
  }

  /** How many rounds `for (let x = lo; x <= hi; x += step)` makes. */
  function Count(lo: real, hi: real, size: int): nat {
    if lo < hi && size > 0 then size + 1 else 0
  }

  /** One axis of the search stops: either the loop never starts, or the
      step is positive. */
  predicate AxisStops(lo: real, hi: real, size: int) {
    size != 0 && (lo > hi || (lo < hi && size > 0))
  }

  /** The nested loops of lines 330-331 stop. With `lo == hi`, or with a
      negative size on an increasing range, the step never moves the loop
      variable past `hi`; the inner loop only matters if the outer one runs. */
  predicate Terminates(g: Grid) {
    && AxisStops(g.xMin, g.xMax, g.size)
    && (Count(g.xMin, g.xMax, g.size) > 0 ==> AxisStops(g.yMin, g.yMax, g.size))
  }

  lemma MulZeroOne(p: real)
    ensures Mul(0.0, p) == 0.0
    ensures Mul(p + 1.0, 0.0) == 0.0
  {
  }

  /** One more round adds one step. */
  lemma CoordSucc(lo: real, hi: real, size: int, i: nat)
    requires size != 0
    ensures Coord(lo, hi, size, i + 1) == Coord(lo, hi, size, i) + Step(lo, hi, size)
  {
    var s := Step(lo, hi, size);
    assert Mul((i + 1) as real, s) == (i as real) * s + s;
  }

  /** The loop test `x <= hi` holds exactly for the first `Count` rounds. */
  lemma CountMatchesLoop(lo: real, hi: real, size: int, i: nat)
    requires AxisStops(lo, hi, size)
    requires i <= Count(lo, hi, size)
    ensures Coord(lo, hi, size, i) <= hi <==> i < Count(lo, hi, size)
  {
    var s := Step(lo, hi, size);
    if lo > hi {
      MulZeroOne(s);
    } else {
      assert s * size as real == hi - lo;
      assert s > 0.0;
      assert Mul(i as real, s) == (i as real) * s;
      if i <= size {
        assert (size as real - i as real) * s >= 0.0;
      } else {
        assert (i as real - size as real) * s > 0.0;
      }
    }
  }

  /** The lattice runs from `lo` to `hi`: its last node is `hi` itself. */
  lemma LatticeEnds(lo: real, hi: real, size: int)
    requires size > 0
    ensures Coord(lo, hi, size, 0) == lo
    ensures Coord(lo, hi, size, size) == hi
  {
    MulZeroOne(Step(lo, hi, size));
    assert Mul(size as real, Step(lo, hi, size)) == size as real * ((hi - lo) / size as real);
  }

  /** The gradient at (x, y) evaluates and both components are below the
      tolerance. */
  predicate Flat(m: MathJs, d: DerivativeSet, x: real, y: real) {
    && Evaluate(m, d.fx, x, y).Ok? && Evaluate(m, d.fy, x, y).Ok?
    && Abs(Evaluate(m, d.fx, x, y).value) < Tolerance
    && Abs(Evaluate(m, d.fy, x, y).value) < Tolerance
  }

  /** The three Hessian entries and the function itself evaluate at (x, y). */
  predicate Measurable(m: MathJs, d: DerivativeSet, fn: EvalFn, x: real, y: real) {
    && Evaluate(m, d.fxx, x, y).Ok? && Evaluate(m, d.fyy, x, y).Ok?
    && Evaluate(m, d.fxy, x, y).Ok? && Evaluate(m, fn, x, y).Ok?
  }

  /** The label of (x, y), where the Hessian evaluates. */
  function KindAt(m: MathJs, d: DerivativeSet, fn: EvalFn, x: real, y: real): Kind
    requires Measurable(m, d, fn, x, y)
  {
    Classify(Evaluate(m, d.fxx, x, y).value, Evaluate(m, d.fyy, x, y).value, Evaluate(m, d.fxy, x, y).value)
  }

  /** The body of the inner loop (lines 332-374): a point is recorded exactly
      where the gradient is flat and every evaluation succeeds; any thrown
      error skips the node. */
  function Probe(m: MathJs, d: DerivativeSet, fn: EvalFn, x: real, y: real): (r: Option<CriticalPoint>)
    ensures r.Some? <==> Flat(m, d, x, y) && Measurable(m, d, fn, x, y)
    ensures r.Some? ==> && OnMilliGrid(r.value.x) && -0.0005 <= x - r.value.x < 0.0005
                        && OnMilliGrid(r.value.y) && -0.0005 <= y - r.value.y < 0.0005
                        && OnMilliGrid(r.value.z)
                        && -0.0005 <= Evaluate(m, fn, x, y).value - r.value.z < 0.0005
                        && r.value.kind == KindAt(m, d, fn, x, y)
  {
    match (Evaluate(m, d.fx, x, y), Evaluate(m, d.fy, x, y))
    case (Ok(gx), Ok(gy)) =>
      if Abs(gx) < Tolerance && Abs(gy) < Tolerance then
        match (Evaluate(m, d.fxx, x, y), Evaluate(m, d.fyy, x, y), Evaluate(m, d.fxy, x, y))
        case (Ok(hxx), Ok(hyy), Ok(hxy)) =>
          (match Evaluate(m, fn, x, y)
           case Ok(z) => Some(CriticalPoint(Round3(x), Round3(y), Round3(z), Classify(hxx, hyy, hxy)))
           case Err(_) => None)
        case _ => None
      else None
    case _ => None
  }

  /** What a recorded label means: the Hessian of the derivative table at
      the node is definite, indefinite or singular accordingly. */
  lemma RecordedKindIsHessianShape(m: MathJs, d: DerivativeSet, fn: EvalFn, x: real, y: real)
    requires Probe(m, d, fn, x, y).Some?
    ensures var p := Probe(m, d, fn, x, y).value;
            var a := Evaluate(m, d.fxx, x, y).value;
            var b := Evaluate(m, d.fyy, x, y).value;
            var c := Evaluate(m, d.fxy, x, y).value;
            && (p.kind == LocalMinimum <==> PositiveDefinite(a, b, c))
            && (p.kind == LocalMaximum <==> NegativeDefinite(a, b, c))
            && (p.kind == SaddlePoint <==> Indefinite(a, b, c))
            && (p.kind == Undetermined <==> Singular(a, b, c))
  {
    var a := Evaluate(m, d.fxx, x, y).value;
    var b := Evaluate(m, d.fyy, x, y).value;
    var c := Evaluate(m, d.fxy, x, y).value;
    MinimumIffPositiveDefinite(a, b, c);
    MaximumIffNegativeDefinite(a, b, c);
    SaddleIffIndefinite(a, b, c);
    UndeterminedIffSingular(a, b, c);
  }

  /** The outcome of probing lattice node (i, j). */
  function NodeProbe(m: MathJs, d: DerivativeSet, fn: EvalFn, g: Grid, i: nat, j: nat): Option<CriticalPoint>
    requires g.size != 0
  {
    Probe(m, d, fn, Coord(g.xMin, g.xMax, g.size, i), Coord(g.yMin, g.yMax, g.size, j))
  }

  /** Node (a, b) is visited before node (i, j) by the row-major loops. */
  predicate Precedes(a: nat, b: nat, i: nat, j: nat, rows: nat) {
    (a < i && b < rows) || (a == i && b < j)
  }

  /** The points recorded before the loops reach node (i, j), in order: at
      most one for each node visited so far. */
  function Before(m: MathJs, d: DerivativeSet, fn: EvalFn, g: Grid, i: nat, j: nat): (r: seq<CriticalPoint>)
    requires g.size != 0
    requires j <= Count(g.yMin, g.yMax, g.size)
    ensures |r| <= i * Count(g.yMin, g.yMax, g.size) + j
    decreases i, j
  {
    var rows := Count(g.yMin, g.yMax, g.size);
    if j > 0 then
      var hit := NodeProbe(m, d, fn, g, i, j - 1);
      Before(m, d, fn, g, i, j - 1) + (if hit.Some? then [hit.value] else [])
    else if i > 0 then Before(m, d, fn, g, i - 1, rows)
    else []
  }

  /** A point is recorded before node (i, j) exactly when it is the probe of
      a node visited earlier. */
  ghost predicate ProbedBefore(m: MathJs, d: DerivativeSet, fn: EvalFn, g: Grid, i: nat, j: nat, p: CriticalPoint)
    requires g.size != 0
  {
    exists a: nat, b: nat :: Precedes(a, b, i, j, Count(g.yMin, g.yMax, g.size))
                             && NodeProbe(m, d, fn, g, a, b) == Some(p)
  }

  lemma {:induction false} BeforeIsExact(m: MathJs, d: DerivativeSet, fn: EvalFn, g: Grid, i: nat, j: nat, p: CriticalPoint)
    requires g.size != 0
    requires j <= Count(g.yMin, g.yMax, g.size)
    ensures p in Before(m, d, fn, g, i, j) <==> ProbedBefore(m, d, fn, g, i, j, p)
    decreases i, j
  {
    var rows := Count(g.yMin, g.yMax, g.size);
    if j > 0 {
      BeforeIsExact(m, d, fn, g, i, j - 1, p);
      ProbedBeforeInRow(m, d, fn, g, i, j, p);
    } else if i > 0 {
      BeforeIsExact(m, d, fn, g, i - 1, rows, p);
      ProbedBeforeNewRow(m, d, fn, g, i, p);
    }
  }

  /** Within a row, the nodes before (i, j) are those before (i, j - 1) and
      (i, j - 1) itself. */
  lemma ProbedBeforeInRow(m: MathJs, d: DerivativeSet, fn: EvalFn, g: Grid, i: nat, j: nat, p: CriticalPoint)
    requires g.size != 0
    requires 0 < j <= Count(g.yMin, g.yMax, g.size)
    ensures ProbedBefore(m, d, fn, g, i, j, p) <==>
              ProbedBefore(m, d, fn, g, i, j - 1, p) || NodeProbe(m, d, fn, g, i, j - 1) == Some(p)
  {
    var rows := Count(g.yMin, g.yMax, g.size);
    if NodeProbe(m, d, fn, g, i, j - 1) == Some(p) {
      assert Precedes(i, j - 1, i, j, rows);
    }
    if ProbedBefore(m, d, fn, g, i, j - 1, p) {
      var a: nat, b: nat :| Precedes(a, b, i, j - 1, rows) && NodeProbe(m, d, fn, g, a, b) == Some(p);
      assert Precedes(a, b, i, j, rows);
    }
    if ProbedBefore(m, d, fn, g, i, j, p) {
      var a: nat, b: nat :| Precedes(a, b, i, j, rows) && NodeProbe(m, d, fn, g, a, b) == Some(p);
      if !(a == i && b == j - 1) {
        assert Precedes(a, b, i, j - 1, rows);
      }
    }
  }

  /** The nodes before the start of row i are those before the end of row
      i - 1. */
  lemma ProbedBeforeNewRow(m: MathJs, d: DerivativeSet, fn: EvalFn, g: Grid, i: nat, p: CriticalPoint)
    requires g.size != 0 && i > 0
    ensures ProbedBefore(m, d, fn, g, i, 0, p) <==>
              ProbedBefore(m, d, fn, g, i - 1, Count(g.yMin, g.yMax, g.size), p)
  {
    var rows := Count(g.yMin, g.yMax, g.size);
    if ProbedBefore(m, d, fn, g, i, 0, p) {
      var a: nat, b: nat :| Precedes(a, b, i, 0, rows) && NodeProbe(m, d, fn, g, a, b) == Some(p);
      assert Precedes(a, b, i - 1, rows, rows);
    }
    if ProbedBefore(m, d, fn, g, i - 1, rows, p) {
      var a: nat, b: nat :| Precedes(a, b, i - 1, rows, rows) && NodeProbe(m, d, fn, g, a, b) == Some(p);
      assert Precedes(a, b, i, 0, rows);
    }
  }

  /** Points recorded earlier stay at the front: the list only grows at its end. */
  lemma {:induction false} BeforeIsPrefix(m: MathJs, d: DerivativeSet, fn: EvalFn, g: Grid, i: nat, j: nat, i2: nat, j2: nat)
    requires g.size != 0
    requires j <= Count(g.yMin, g.yMax, g.size) && j2 <= Count(g.yMin, g.yMax, g.size)
    requires i < i2 || (i == i2 && j <= j2)
    ensures Before(m, d, fn, g, i, j) <= Before(m, d, fn, g, i2, j2)
    decreases i2, j2
  {
    var rows := Count(g.yMin, g.yMax, g.size);
    if i == i2 && j == j2 {
    } else if j2 > 0 {
      BeforeIsPrefix(m, d, fn, g, i, j, i2, j2 - 1);
    } else {
      BeforeIsPrefix(m, d, fn, g, i, j, i2 - 1, rows);
    }
  }

  /** Every point the grid search records, in loop order: at most one per
      lattice node. */
  function Scan(m: MathJs, d: DerivativeSet, fn: EvalFn, g: Grid): (r: seq<CriticalPoint>)
    requires g.size != 0
    ensures |r| <= Count(g.xMin, g.xMax, g.size) * Count(g.yMin, g.yMax, g.size)
  {
    Before(m, d, fn, g, Count(g.xMin, g.xMax, g.size), 0)
  }

  /** The scan records exactly the lattice nodes where `Probe` succeeds. */
  lemma ScanIsExact(m: MathJs, d: DerivativeSet, fn: EvalFn, g: Grid, p: CriticalPoint)
    requires g.size != 0
    ensures p in Scan(m, d, fn, g) <==>
              exists a: nat, b: nat :: a < Count(g.xMin, g.xMax, g.size) && b < Count(g.yMin, g.yMax, g.size)
                                       && NodeProbe(m, d, fn, g, a, b) == Some(p)
  {
    var cols := Count(g.xMin, g.xMax, g.size);
    var rows := Count(g.yMin, g.yMax, g.size);
    BeforeIsExact(m, d, fn, g, cols, 0, p);
    if p in Scan(m, d, fn, g) {
      var a: nat, b: nat :| Precedes(a, b, cols, 0, rows) && NodeProbe(m, d, fn, g, a, b) == Some(p);
      assert a < cols && b < rows;
    }
    if exists a: nat, b: nat :: a < cols && b < rows && NodeProbe(m, d, fn, g, a, b) == Some(p) {
      var a: nat, b: nat :| a < cols && b < rows && NodeProbe(m, d, fn, g, a, b) == Some(p);
      assert Precedes(a, b, cols, 0, rows);
    }
  }

  /** The nested loops of lines 330-376, with the loop variables advanced by
      repeated addition as in the source. */
  method ScanLattice(m: MathJs, d: DerivativeSet, fn: EvalFn, g: Grid) returns (points: seq<CriticalPoint>)
    requires Terminates(g)
    ensures points == Scan(m, d, fn, g)
  {
    var cols := Count(g.xMin, g.xMax, g.size);
    var xStep := (g.xMax - g.xMin) / g.size as real;
    points := [];
    var x := g.xMin;
    var i: nat := 0;
    MulZeroOne(xStep);
    CountMatchesLoop(g.xMin, g.xMax, g.size, 0);
    while x <= g.xMax
      invariant i <= cols
      invariant x == Coord(g.xMin, g.xMax, g.size, i)
      invariant x <= g.xMax <==> i < cols
      invariant points == Before(m, d, fn, g, i, 0)
      decreases cols - i
    {
      points := ScanColumn(m, d, fn, g, i, x, points);
      CoordSucc(g.xMin, g.xMax, g.size, i);
      x := x + xStep;
      i := i + 1;
      CountMatchesLoop(g.xMin, g.xMax, g.size, i);
    }
  }

  /** The inner loop for the column at `x`, the i-th lattice coordinate: the
      points of that column are appended in increasing y. */
  method ScanColumn(m: MathJs, d: DerivativeSet, fn: EvalFn, g: Grid, i: nat, x: real, before: seq<CriticalPoint>)
    returns (points: seq<CriticalPoint>)
    requires Terminates(g) && i < Count(g.xMin, g.xMax, g.size)
    requires x == Coord(g.xMin, g.xMax, g.size, i)
    requires before == Before(m, d, fn, g, i, 0)
    ensures points == Before(m, d, fn, g, i + 1, 0)
  {
    var rows := Count(g.yMin, g.yMax, g.size);
    var yStep := (g.yMax - g.yMin) / g.size as real;
    points := before;
    var y := g.yMin;
    var j: nat := 0;
    MulZeroOne(yStep);
    CountMatchesLoop(g.yMin, g.yMax, g.size, 0);
    while y <= g.yMax
      invariant j <= rows
      invariant y == Coord(g.yMin, g.yMax, g.size, j)
      invariant y <= g.yMax <==> j < rows
      invariant points == Before(m, d, fn, g, i, j)
      decreases rows - j
    {
      var hit := Probe(m, d, fn, x, y);
      if hit.Some? {
        points := points + [hit.value];
      }
      CoordSucc(g.yMin, g.yMax, g.size, j);
      y := y + yStep;
      j := j + 1;
      CountMatchesLoop(g.yMin, g.yMax, g.size, j);
    }
  }

  /** Where the grid search is reached: a non-empty text that is none of the
      three hard-coded functions and that `parseFunction` accepts. */
  predicate Searches(m: MathJs, expression: string) {
    && expression != []
    && Trim(expression) != SumOfSquaresText
    && Trim(expression) != SinCosText
    && Trim(expression) != DifferenceOfSquaresText
    && ParseFunction(m, Trim(expression)).Ok?
  }

  /** `findCriticalPoints(expression, xRange, yRange, gridSize)`, as a
      definition; the derivative step never throws, so its `catch` is dead. */
  function CriticalPoints(m: MathJs, expression: string, g: Grid): (r: seq<CriticalPoint>)
    requires Searches(m, expression) ==> Terminates(g)
    ensures !Searches(m, expression) ==> r == FixedAnswer(expression)
    ensures r == [] ==> Searches(m, expression)
                        && Evaluate(m, ParseFunction(m, Trim(expression)).value.fn, 0.0, 0.0).Err?
  {
    if expression == [] then [Placeholder]
    else
      var t := Trim(expression);
      if t == SumOfSquaresText then SumOfSquaresPoints
      else if t == SinCosText then SinCosPoints
      else if t == DifferenceOfSquaresText then DifferenceOfSquaresPoints
      else
        match ParseFunction(m, t)
        case Err(_) => [Placeholder]
        case Ok(f) => SearchOutcome(m, PartialDerivatives(m, f), f.fn, g)
  }

  /** Lines 320-396: the points the grid search records or, when it records
      none, the origin with its unrounded value, or nothing at all. */
  function SearchOutcome(m: MathJs, d: DerivativeSet, fn: EvalFn, g: Grid): (r: seq<CriticalPoint>)
    requires g.size != 0
    ensures Scan(m, d, fn, g) <= r
    ensures r == [] <==> Scan(m, d, fn, g) == [] && Evaluate(m, fn, 0.0, 0.0).Err?
    ensures |r| > |Scan(m, d, fn, g)| ==> r == [CriticalPoint(0.0, 0.0, r[0].z, Undetermined)]
  {
    var found := Scan(m, d, fn, g);
    if found != [] then found
    else
      match Evaluate(m, fn, 0.0, 0.0)
      case Ok(z) => [CriticalPoint(0.0, 0.0, z, Undetermined)]
      case Err(_) => []
  }

  /** The same function with its loops, as the source runs it. */
  method FindCriticalPoints(m: MathJs, expression: string, g: Grid) returns (points: seq<CriticalPoint>)
    requires Searches(m, expression) ==> Terminates(g)
    ensures points == CriticalPoints(m, expression, g)
  {
    if expression == [] {
      return [Placeholder];
    }
    var t := Trim(expression);
    if t == SumOfSquaresText {
      return SumOfSquaresPoints;
    }
    if t == SinCosText {
      return SinCosPoints;
    }
    if t == DifferenceOfSquaresText {
      return DifferenceOfSquaresPoints;
    }
    var parsed := ParseFunction(m, t);
    if parsed.Err? {
      return [Placeholder];
    }
    var f := parsed.value;
    var derivatives := PartialDerivatives(m, f);
    points := ScanLattice(m, derivatives, f.fn, g);
    if points == [] {
      var z := Evaluate(m, f.fn, 0.0, 0.0);
      if z.Ok? {
        points := [CriticalPoint(0.0, 0.0, z.value, Undetermined)];
      }
    }
  }

  /** Outside the grid search the answer is never empty and does not depend
      on mathjs or on the window: it is a hard-coded list or the placeholder. */
  lemma AnswerOutsideSearch(m1: MathJs, m2: MathJs, expression: string, g1: Grid, g2: Grid)
    requires !Searches(m1, expression)
    ensures !Searches(m2, expression)
    ensures CriticalPoints(m1, expression, g1) == CriticalPoints(m2, expression, g2)
    ensures CriticalPoints(m1, expression, g1) in
              {[Placeholder], SumOfSquaresPoints, SinCosPoints, DifferenceOfSquaresPoints}
  {
    if expression != [] {
      RejectionIgnoresMathJs(m1, m2, Trim(expression));
    }
  }

  /** The answer when the grid search is not reached: a hard-coded list
      chosen by the trimmed text, or the placeholder. */
  function FixedAnswer(expression: string): seq<CriticalPoint> {
    var t := Trim(expression);
    if expression != [] && t == SumOfSquaresText then SumOfSquaresPoints
    else if expression != [] && t == SinCosText then SinCosPoints
    else if expression != [] && t == DifferenceOfSquaresText then DifferenceOfSquaresPoints
    else [Placeholder]
  }

  /** Every point the search path returns is either a node of the lattice
      where the gradient is flat, or the origin fallback labelled Undetermined,
      which appears only when no node qualified. */
  lemma SearchedPointsAreAccountedFor(m: MathJs, d: DerivativeSet, fn: EvalFn, g: Grid, p: CriticalPoint)
    requires g.size != 0
    requires p in SearchOutcome(m, d, fn, g)
    ensures || (exists a: nat, b: nat :: a < Count(g.xMin, g.xMax, g.size) && b < Count(g.yMin, g.yMax, g.size)
                                         && NodeProbe(m, d, fn, g, a, b) == Some(p))
            || (Scan(m, d, fn, g) == [] && p.x == 0.0 && p.y == 0.0 && p.kind == Undetermined
                && Evaluate(m, fn, 0.0, 0.0) == Ok(p.z))
  {
    ScanIsExact(m, d, fn, g, p);
  }

  /** Conversely, every successful probe of a lattice node is returned; when
      none succeeds, the answer is the origin with its unrounded value,
      labelled Undetermined, or nothing at all when f(0, 0) throws. */
  lemma SearchReturnsEveryProbe(m: MathJs, d: DerivativeSet, fn: EvalFn, g: Grid)
    requires g.size != 0
    ensures forall a: nat, b: nat ::
              a < Count(g.xMin, g.xMax, g.size) && b < Count(g.yMin, g.yMax, g.size)
              && NodeProbe(m, d, fn, g, a, b).Some?
              ==> NodeProbe(m, d, fn, g, a, b).value in SearchOutcome(m, d, fn, g)
    ensures Scan(m, d, fn, g) == [] ==>
              SearchOutcome(m, d, fn, g)
              == (if Evaluate(m, fn, 0.0, 0.0).Ok?
                  then [CriticalPoint(0.0, 0.0, Evaluate(m, fn, 0.0, 0.0).value, Undetermined)]
                  else [])
  {
    var cols := Count(g.xMin, g.xMax, g.size);
    var rows := Count(g.yMin, g.yMax, g.size);
    forall a: nat, b: nat | a < cols && b < rows && NodeProbe(m, d, fn, g, a, b).Some?
      ensures NodeProbe(m, d, fn, g, a, b).value in SearchOutcome(m, d, fn, g)
    {
      var p := NodeProbe(m, d, fn, g, a, b).value;
      ScanIsExact(m, d, fn, g, p);
    }
  }

  /** A point is in the search outcome exactly when it is a successful probe
      of a lattice node or, when there is none, the origin fallback. */
  predicate OutcomeMember(m: MathJs, d: DerivativeSet, fn: EvalFn, g: Grid, p: CriticalPoint)
    requires g.size != 0
  {
    || (exists a: nat, b: nat :: a < Count(g.xMin, g.xMax, g.size) && b < Count(g.yMin, g.yMax, g.size)
                                 && NodeProbe(m, d, fn, g, a, b) == Some(p))
    || (Scan(m, d, fn, g) == [] && p.x == 0.0 && p.y == 0.0 && p.kind == Undetermined
        && Evaluate(m, fn, 0.0, 0.0) == Ok(p.z))
  }

  lemma SearchOutcomeMembers(m: MathJs, d: DerivativeSet, fn: EvalFn, g: Grid, p: CriticalPoint)
    requires g.size != 0
    ensures p in SearchOutcome(m, d, fn, g) <==> OutcomeMember(m, d, fn, g, p)
  {
    SearchReturnsEveryProbe(m, d, fn, g);
    if p in SearchOutcome(m, d, fn, g) {
      SearchedPointsAreAccountedFor(m, d, fn, g, p);
    }
  }

  /** On the search path the answer is the search outcome of the parsed
      function under its derivative table. */
  lemma SearchPathOutcome(m: MathJs, expression: string, g: Grid)
    requires Searches(m, expression) && Terminates(g)
    ensures CriticalPoints(m, expression, g)
            == SearchOutcome(m, PartialDerivatives(m, ParseFunction(m, Trim(expression)).value),
                             ParseFunction(m, Trim(expression)).value.fn, g)
  {
  }

  /** On the search path, `findCriticalPoints` returns exactly the successful
      probes of the parsed function's lattice under its derivative table, or,
      when there are none, the origin with its value labelled Undetermined. */
  lemma SearchPathPoints(m: MathJs, expression: string, g: Grid, p: CriticalPoint)
    requires Searches(m, expression) && Terminates(g)
    ensures p in CriticalPoints(m, expression, g)
            <==> OutcomeMember(m, PartialDerivatives(m, ParseFunction(m, Trim(expression)).value),
                               ParseFunction(m, Trim(expression)).value.fn, g, p)
  {
    var f := ParseFunction(m, Trim(expression)).value;
    SearchPathOutcome(m, expression, g);
    SearchOutcomeMembers(m, PartialDerivatives(m, f), f.fn, g, p);
  }

  /** With the default window the search always stops. */
  lemma DefaultSearchGridTerminates()
    ensures Terminates(DefaultSearchGrid)
    ensures Count(-10.0, 10.0, 20) == 21
  {
  }
}
